=== FILE: README.md ===
# Fetch, hash and cache: a Dafny model of `routes/hash.js`

This project models the hashing service of `routes/hash.js`. The service takes a URL,
or a batch of URLs, and answers with a SHA-256 digest of each site. The digest covers
the page itself and, recursively, every stylesheet and script the page links to.

The model follows the parts of the route in order:

- **URL normalisation** (`Url`). `addProtocolToUrl` puts `https://` in front of a
  string with no `http://` or `https://` prefix. `parseUrlWithoutHashAndQuery` parses the
  result, clears its query and fragment, and serialises it again. The parser is a small
  WHATWG-style splitter. A URL is a scheme, a non-empty host, a path (`/` when empty),
  an optional query and an optional fragment. Parsing fails on text without an
  `http://` or `https://` prefix and on an empty host.
- **The walk** (`Traversal`). `fetchAndHashContent` is modelled over a *web*: a finite
  map from URL to the fetched text and the references found in it. A URL missing from
  the map is a failed fetch.
  - The visited set is shared by the whole walk.
  - Relative references are joined to the page URL, and the `url += '/'` mutation
    persists for the following siblings (`Resolve`, `ResolvedAt`).
  - The result is the combination string `content_path1_result1_path2_result2…`.
- **The schedule.** After a page is fetched, the `linkedResources.map` callbacks run in
  document order up to their first `await`. So every sibling is resolved, checked against
  the visited set and added to it before any sibling's response is processed (`Claim`);
  each callback's request may already be out by then. The responses of the fresh
  siblings are then walked one after the other (`ExpandAll`). A sibling whose URL was
  already visited contributes `path_` with an empty result. This is one schedule the
  JavaScript can exhibit; it is the one the model fixes.
- **The cache** (`HashRoute`). `hashCache` is a map from normalised URL to a hash and
  the time it was last updated.
  - Only URLs matching `https?://([\w-]+)\.github\.io/([\w-]+)` whose first group is
    `ranchimall` use the cache (`GithubPages.Eligible`). The regular expression is
    modelled with leftmost-match semantics (`FirstMatch`, `MatchAt`).
  - A batch runs its callbacks concurrently. Each callback reaches its `hashCache.has`
    test before any fetch completes, so every callback of a batch sees the cache as it
    was at the start of the batch (`seen`).
  - The writes of the batch are applied in input order (`SaveAll`). A failing callback
    does not stop the others from writing.
  - The answer is every hash when all callbacks succeed, otherwise the error of a
    failing callback (`Collect`).
- **The `/gitwh` webhook** (`Webhook`).
  - A request is ignored unless its user agent starts with `GitHub-Hookshot/` and its
    repository has pages.
  - Otherwise the site `https://<organization>.github.io/<name>` is fetched, hashed and
    stored, with `pushed_at` as its time and the current time when that is absent.
  - A missing header or a missing `repository` object is the `TypeError` that the
    handler's `catch` turns into an error reply.

SHA-256 is the uninterpreted parameter `sha`, and `Date.now()` is the parameter `now`.
The route module is stated over a *site*: any function from URL to an optional
combination string. `HashRoute.SiteOf` builds the site of a web from
`Traversal.FetchAndHashContent`, and `HashRoute.LeafPageHash` connects the two.

Two behaviours of the code are worth spelling out, and the model keeps both:

- A cached hash is served without any freshness check. An entry is created on the
  first miss of an eligible URL (routes/hash.js:92-93) and replaced by the webhook
  (routes/hash.js:120). Otherwise it is only rewritten by a second miss of the same key
  that passed its `hashCache.has` test before the first write landed: two inputs of one
  batch that normalise to the same key, or concurrent requests. `SaveAll` writes such a
  duplicate key twice, with the same entry. `lastUpdated` is stored but never read.
- The webhook also creates entries. It writes `https://<organization>.github.io/<name>`
  for any organization (routes/hash.js:119-120), even a key never requested; for an
  organization other than `ranchimall` that key is not eligible, so no read consults it.
- An empty batch is answered, not rejected. The guard `!urls` (routes/hash.js:75) is
  false for `[]`, so `{"urls": []}` is answered with an empty array
  (`HashRoute.GenerateHash`).

## Model

| member | source | states |
|---|---|---|
| `Url.AddProtocol` | routes/hash.js:7-12 | The result always starts with `http://` or `https://`. An input that already has one of these prefixes is returned unchanged; any other input gets `https://` in front. |
| `Url.AddProtocolIdempotent` | routes/hash.js:7-12 | Adding the protocol a second time changes nothing. |
| `Url.Parse` | routes/hash.js:16 | A successful parse yields a well-formed URL: http or https, a non-empty host without delimiters, a path starting with `/`. Parsing succeeds only on text with a supported scheme. |
| `Url.ParseSerialize` | routes/hash.js:16-23 | Parsing the serialisation of any well-formed URL gives back that URL. |
| `Url.StripHashAndQuery` | routes/hash.js:18-20 | Clearing the hash and search leaves no query and no fragment, and keeps the scheme, host and path. |
| `Url.Serialize` | routes/hash.js:23 | A well-formed URL serialises behind its `scheme://` prefix. One without query or fragment serialises to text containing neither `?` nor `#`. |
| `Url.ParseHttps` | routes/hash.js:16-23 | Text `https://host/path` with a delimiter-free host and a path free of `?` and `#` parses into exactly that host and path, with no query or fragment. It is also that URL's serialisation. |
| `Url.NormalizeHttps` | routes/hash.js:14-26 | Such text is its own normal form. |
| `Url.Normalize` | routes/hash.js:14-26 | A normalised URL has a scheme and contains no `?` or `#`. Normalisation fails exactly when the input, with the protocol added, does not parse. |
| `Url.NormalizeClears` | routes/hash.js:14-26 | Normalising a serialised URL yields the serialisation of that URL with its query and fragment removed. |
| `Url.NormalizeIdempotent` | routes/hash.js:14-26 | Normalising an already normalised URL gives it back unchanged. |
| `GithubPages.WordRun` | routes/hash.js:90 | The greedy `[\w-]+` run starting at a position consists of word characters and stops at the end of the text or at a non-word character. |
| `GithubPages.WordRunExact` | routes/hash.js:90 | A word followed by a non-word character is exactly the run found at its start. |
| `GithubPages.MatchAt` | routes/hash.js:90 | A match starting at a position has the shape `http(s)://owner.github.io/` followed by a word character, and captures that owner. |
| `GithubPages.MatchAtComplete` | routes/hash.js:90 | Conversely, whenever the text at a position has that shape with some owner, the match there succeeds and captures exactly that owner. |
| `GithubPages.FirstMatch` | routes/hash.js:90-91 | The captured owner comes from the leftmost position where the pattern matches. No match means there is no matching position at all. |
| `GithubPages.Owner` | routes/hash.js:90-91 | The owner is the one captured at the leftmost position where the text has the pattern's shape. There is none exactly when no position has that shape. |
| `GithubPages.Eligible` | routes/hash.js:91 | A URL uses the cache exactly when the leftmost position with the pattern's shape captures `ranchimall`. |
| `GithubPages.PagesUrl` | routes/hash.js:119 | For a word-character organization and a name without `?` or `#`, the webhook's URL parses into host `<organization>.github.io` and path `/<name>`. It is its own normal form, so the key the webhook writes is the key a later read of that URL looks up. |
| `GithubPages.PagesUrlOwner` | routes/hash.js:91 | The URL the webhook builds from word-character names is matched with the organization as owner. It is cache-eligible exactly when the organization is `ranchimall`. |
| `GithubPages.CachedPagesUrl` | routes/hash.js:91 | The published-site URL of the `ranchimall` organization is normalised and cache-eligible, for any name that starts with a word character and holds no `?` or `#` (dots included). |
| `Traversal.Resolve` | routes/hash.js:48-54 | The base seen by later siblings is either unchanged or the old base plus `/`. The `/` is added only for a relative reference whose path does not start with `/` when the base does not already end in `/`. After such a reference the base ends in `/`. |
| `Traversal.ResolvedAt` | routes/hash.js:48-54 | An absolute reference resolves to its `href`. A relative one is appended to the base, with at most one `/` inserted, and only when the base lacks a trailing `/`. A relative path that does not start with `/` is always separated from the base by exactly one `/`. |
| `Traversal.ResolvedShift` | routes/hash.js:50-53 | Threading the mutated base through the siblings gives the same URLs as the closed form `ResolvedAt`. A relative reference sees a trailing `/` once any earlier-or-same sibling asked for it. |
| `Traversal.Claim` | routes/hash.js:36-40 | Each sibling target keeps its reference's path and the URL that resolution gives. A target is fetched exactly when its URL is neither visited nor claimed by an earlier sibling. The visited set afterwards is the old one plus the fetched URLs. |
| `Traversal.ClaimFacts` | routes/hash.js:36-40 | Siblings that are fetched have pairwise different URLs, none of them visited before. |
| `Traversal.Labels` | routes/hash.js:56 | Each link contributes its path, `_` and its walked result, in document order. |
| `Strings.Join` | routes/hash.js:60 | `join` gives the empty string for no parts. Otherwise the text starts with the first part and ends with the last. |
| `Strings.JoinAppend` | routes/hash.js:60 | Joining two non-empty lists one after the other is joining each and putting one separator between them, whatever the parts contain. |
| `Traversal.Combine` | routes/hash.js:60 | The combination string starts with the page content and `_`. A page without links ends there. Otherwise the string ends with the label of the last link. |
| `Traversal.Expand` | routes/hash.js:35-61 | The walk from a fetched page grows the visited set, fetches no URL twice, and fetches only its own URL or URLs that were unvisited. It succeeds exactly when every fetched URL exists. On success the visited set grows by exactly the fetched URLs, and the result starts with the page content and `_`. |
| `Traversal.ExpandAll` | routes/hash.js:47-57 | Walking the claimed siblings returns one result per link on success, with `""` for every link that was not fetched. It fetches each claimed URL at most once and touches nothing outside the claimed and unvisited URLs. |
| `Traversal.Visit` | routes/hash.js:35-40 | A visited URL yields `""` and fetches nothing. Otherwise the URL is fetched first, every fetched URL is distinct and was unvisited, success means every fetch found its URL, and the visited set grows by exactly what was fetched. |
| `Traversal.FetchAndHashContent` | routes/hash.js:35-61 | A missing URL fails. A successful walk starts with the page content and `_`. A page without links gives its content followed by `_`. |
| `Traversal.FetchCountBound` | routes/hash.js:36-40 | However the links loop, a successful walk fetches at most as many resources as the web holds. |
| `Traversal.ExpandAllSeen` | routes/hash.js:36-37 | Links whose targets were all visited already fetch nothing and yield an empty result each. |
| `Traversal.SeenBefore` | routes/hash.js:47-55 | The visited set the `i`-th sibling is walked from is the one left by walking the first `i` siblings. It contains the set as claiming left it, and the first sibling sees exactly that set. |
| `Traversal.SeenBeforeShift` | routes/hash.js:47-55 | After a successful first walk, each later sibling sees the set it would see if the rest of the list were walked from where the first walk left off. |
| `Traversal.ExpandAllChildren` | routes/hash.js:47-57 | In a successful walk of siblings, each fetched link's result is the full walk of that link's URL from exactly the visited set the earlier siblings' walks left behind. |
| `Traversal.LinkSeen` | routes/hash.js:47-55 | The `i`-th link of a page is walked from the page's claimed set plus what the walks of the first `i` links visited. The first link sees exactly the claimed set. |
| `Traversal.CombinationShape` | routes/hash.js:47-60 | A successful walk of a page yields `Combine` of its content over the labels of its claimed links. Every link that was not fetched has an empty result. Every fetched link's result is the full walk of its own URL from exactly the visited set `LinkSeen` names: all siblings claimed and the earlier ones walked. |
| `Traversal.ClaimOneAbsolute` | routes/hash.js:48-50 | A single absolute reference resolves to its `href` and is fetched exactly when that URL is not visited. |
| `Traversal.LinkBack` | routes/hash.js:36-37 | A page whose only link points to a visited URL combines to `content_path_` and fetches only itself. |
| `Traversal.SelfLoop` | routes/hash.js:35-61 | A page linking to itself terminates and hashes as `content_path_`. |
| `Traversal.LinkForward` | routes/hash.js:47-60 | A page whose only link points to an unvisited URL embeds that URL's walk after the link's path, and fetches itself before that walk's fetches. |
| `Traversal.TwoCycleFrom` | routes/hash.js:35-61 | In a two-page cycle entered with the first page visited, the walk fetches the second page once and stops at the link back. |
| `Traversal.TwoCycleVisit` | routes/hash.js:35-61 | Visiting either page of a two-page cycle from any visited set that contains neither page fetches both exactly once, in order. |
| `Traversal.TwoCycle` | routes/hash.js:35-61 | Two pages linking to each other hash as `a_pathB_b_pathA_`, and the walk fetches `[a, b]`. |
| `HashRoute.HashUrl` | routes/hash.js:97-98 | A failed walk gives no hash. A successful one gives the digest of its combination string. |
| `HashRoute.HashUrlOfWeb` | routes/hash.js:97-98 | Over a web, hashing fails exactly when the walk fetches a URL the web lacks, and always when the URL itself is missing. |
| `HashRoute.FetchAndSaveAppHash` | routes/hash.js:105-109 | The save succeeds exactly when the site can be walked, and fails otherwise with that URL's fetch error. On success it stores the digest and the given time under the URL and leaves every other entry alone. |
| `HashRoute.Answer` | routes/hash.js:86-100 | Input that does not normalise gives `InvalidUrl`. A cache-eligible key that was cached answers with the cached hash. Any other key answers with the digest of its walk, or that key's fetch error. The answer echoes the input URL. |
| `HashRoute.Collect` | routes/hash.js:103 | All answers when every callback succeeds, in input order. Otherwise an error that one of the callbacks produced. |
| `HashRoute.Save` | routes/hash.js:92-93 | One callback's write keeps every earlier key and adds at most the input's own key. A cache whose entries beyond `seen` are correct, current-time entries for eligible keys stays so. |
| `HashRoute.SaveAll` | routes/hash.js:86-94 | The writes of a whole batch keep every earlier key. Every key they add is the normalisation of one of the inputs. They add only correct, current-time entries for eligible keys. |
| `HashRoute.SaveAllCovers` | routes/hash.js:92-95 | After a batch, every eligible input whose site can be walked has its key in the cache. |
| `HashRoute.CoveredAgrees` | routes/hash.js:91-95 | After a batch, every successful eligible answer equals the hash stored under its key. |
| `HashRoute.Generate` | routes/hash.js:83-104 | The batch succeeds exactly when every input's answer does, with one answer per input in input order, each echoing its input. Otherwise it fails with one input's error. The new cache extends the old with correct entries for the inputs' keys only, and agrees with every eligible answer. |
| `HashRoute.GenerateHash` | routes/hash.js:83-85 | A single URL is answered as a one-element batch and an array as itself, echoing the inputs in order. The cache is only extended. |
| `HashRoute.Webhook` | routes/hash.js:111-125 | The reply is success exactly for a Hookshot agent, a repository with pages and a site that can be walked. It is `ignored` exactly for another agent or a repository without pages. A missing user agent is an error. Only success changes the cache: it stores the site's digest under the pages URL with `pushed_at`, or now, as its time. |
| `HashRoute.SaveIdle` | routes/hash.js:92-94 | A callback writes nothing when its input is invalid or ineligible, its key was cached when the batch began, or its site cannot be walked. |
| `HashRoute.SaveAllIdle` | routes/hash.js:92-94 | A batch whose eligible inputs were all cached when it began, or cannot be walked, leaves the cache as it was. |
| `HashRoute.AnswerStable` | routes/hash.js:91-98 | Answers over a cache that a batch extended equal the answers over the original cache. |
| `HashRoute.CachedIgnoresWeb` | routes/hash.js:91-95 | A batch of eligible, cached URLs fetches nothing: its result does not depend on the site or the time, it leaves the cache unchanged, and it answers every input with the cached hash. |
| `HashRoute.UncachedIgnoresCache` | routes/hash.js:96-98 | A batch of ineligible or invalid URLs never writes the cache, and its answer does not depend on the cache or the time. |
| `HashRoute.GenerateSingle` | routes/hash.js:84-85 | A one-URL batch answers with that URL's answer and performs that URL's write. |
| `HashRoute.EligibleMiss` | routes/hash.js:92-95 | An eligible URL missing from the cache is walked. On success its digest is returned and stored under the key with the current time. On failure the batch fails and the cache is unchanged. |
| `HashRoute.RepeatHitsCache` | routes/hash.js:91-95 | Repeating a batch on the cache it produced gives the same answer, with no new write, against the same sites at any later clock reading. |
| `HashRoute.CachedSingle` | routes/hash.js:91-95 | A request for an eligible, cached key answers with the cached hash and leaves the cache unchanged. |
| `HashRoute.WebhookThenRead` | routes/hash.js:111-125 | After a successful webhook for a `ranchimall` site whose name starts with a word character and holds no `?` or `#`, a request for that site returns the digest the webhook stored, whatever the site serves by then. |
| `HashRoute.LeafPageHash` | routes/hash.js:28-60 | A page without links hashes as the digest of its content followed by `_`. |

## Left out

- The network, HTML parsing and Node's `url.parse`. A page is given as its text and the
  references extracted from it, so the `href || src` attribute choice is not modelled.
  A reference's `hostname`, `href` and `path` are as `url.parse` would report them.
- A reference that `url.parse` reports without a `path` (where `resourceUrl.path` is
  `null`) is not modelled. Nor is a link with neither `href` nor `src`: in the code these
  throw.
- The WHATWG URL parser in full. The model does no host validation, lower-casing,
  percent-encoding, port handling or dot-segment removal. Only `http` and `https` parse.
- SHA-256 and UTF-8 encoding: the digest is the uninterpreted function `sha` over strings.
- Concurrency in general. One schedule of the sibling callbacks is modelled (see above).
- Two concurrent requests, or a request and a webhook, are modelled as running one
  after the other. Interleavings of their cache writes are not modelled.
- `Traversal.ExpandAll`: after the first failed fetch among siblings, the fetches of the
  later siblings are not modelled. In the code those fetches are still started
  concurrently; the result is a failure either way.
- `Url.Parse`: the WHATWG parser also skips extra slashes after the scheme (`https:///x`
  gives `https://x/`, where the model fails), treats `\` as `/` in http(s) URLs, removes
  tabs and newlines, and strips leading and trailing spaces. None of these is modelled,
  so `Url.Normalize` fails on, or keys differently, such inputs.
- `GithubPages.PagesUrl`: the model does not lower-case hosts. For an organization with
  upper-case letters `new URL` lower-cases the host, so the program's key differs from
  the text the webhook builds; the normal-form claim holds for the modelled parser only.
- `HashRoute.Collect`: states only that the error comes from one failing callback. The
  definition picks the first in input order. `Promise.all` rejects with the first
  rejection in time, which the model has no clock for.
- Express plumbing: status codes, JSON bodies, and the 400 replies for a missing `url`
  query or a missing `urls` body. Also the unhandled rejection when `GET /` fails.
- JavaScript coercions: a `repository` with a missing `organization` or `name` builds a
  URL containing `undefined`, and a `null` `pushed_at` is stored as is. Neither is
  modelled: the fields are strings, and `pushed_at` is present or absent.
- The other routes (`price-history`, `is-tor`), the data models and the server set-up
  in `index.js` are not part of this model.

=== FILE: collections.dfy ===
/** Small facts about sequences and sets used by the traversal proofs. */
module Collections {

  /** The set of elements of a sequence. */
  function Elems<T>(s: seq<T>): set<T> {
    set x | x in s
  }

  /** No element occurs twice. */
  predicate Distinct<T(==)>(s: seq<T>) {
    forall i, j :: 0 <= i < j < |s| ==> s[i] != s[j]
  }

  lemma ElemsConcat<T>(a: seq<T>, b: seq<T>)
    ensures Elems(a + b) == Elems(a) + Elems(b)
  {
  }

  /** Two distinct sequences with no common element concatenate to a distinct sequence. */
  lemma DistinctConcat<T>(a: seq<T>, b: seq<T>)
    requires Distinct(a) && Distinct(b)
    requires Elems(a) !! Elems(b)
    ensures Distinct(a + b)
  {
    forall i, j | 0 <= i < j < |a + b|
      ensures (a + b)[i] != (a + b)[j]
    {
      if j >= |a| && i < |a| {
        assert (a + b)[i] in Elems(a);
        assert (a + b)[j] == b[j - |a|];
        assert (a + b)[j] in Elems(b);
      }
    }
  }

  /** A distinct sequence has exactly as many elements as its set of elements. */
  lemma {:induction false} DistinctCard<T>(s: seq<T>)
    requires Distinct(s)
    ensures |Elems(s)| == |s|
  {
    if s != [] {
      var t := s[1..];
      assert Distinct(t) by {
        forall i, j | 0 <= i < j < |t| ensures t[i] != t[j] {
          assert t[i] == s[i + 1] && t[j] == s[j + 1];
        }
      }
      DistinctCard(t);
      assert Elems(s) == {s[0]} + Elems(t) by {
        assert s == [s[0]] + t;
        ElemsConcat([s[0]], t);
      }
      assert s[0] !in Elems(t) by {
        forall k | 0 <= k < |t| ensures t[k] != s[0] {
          assert t[k] == s[k + 1];
        }
      }
    }
  }

  /** A subset is no larger than its superset. */
  lemma {:induction false} SubsetCard<T>(a: set<T>, b: set<T>)
    requires a <= b
    ensures |a| <= |b|
    decreases a
  {
    if a != {} {
      var x :| x in a;
      SubsetCard(a - {x}, b - {x});
    }
  }

  /** Removing more elements never leaves a larger remainder. */
  lemma DiffMonotone<T>(a: set<T>, v: set<T>, w: set<T>)
    requires v <= w
    ensures |a - w| <= |a - v|
  {
    SubsetCard(a - w, a - v);
  }

  /** Claiming an element of `a` that was not yet removed strictly shrinks the remainder. */
  lemma DiffShrinks<T>(a: set<T>, v: set<T>, w: set<T>, x: T)
    requires v <= w && x in a && x !in v && x in w
    ensures |a - w| < |a - v|
  {
    SubsetCard(a - w, (a - v) - {x});
  }
}

=== FILE: hashroute.dfy ===
/** The request-level logic of routes/hash.js: `generateHash` with its per-process cache
    `hashCache`, `fetchAndSaveAppHash`, and the decision logic of the `/gitwh` webhook.
    SHA-256 is the uninterpreted parameter `sha`, the clock `Date.now()` the parameter
    `now`, and the walk of `fetchAndHashContent` the parameter `site`, which `SiteOf`
    builds from the traversal over a web. */
module HashRoute {
  import opened Wrappers
  import opened Strings
  import Url
  import GithubPages
  import Traversal
  import Collections

  /** A `hashCache` value: the hash and when it was last refreshed. */
  datatype Entry = Entry(hash: string, lastUpdated: int)

  /** `hashCache`, keyed by normalised URL. */
  type Cache = map<string, Entry>

  /** What a request can fail with. */
  datatype Error =
    | InvalidUrl(input: string)   // `new URL` throws on the input
    | FetchFailed(url: string)    // some fetch of the traversal from `url` fails
    | MissingUserAgent            // `req.headers['user-agent']` is undefined
    | MissingRepository           // the webhook body has no `repository`

  /** One element of `generateHash`'s answer: the input as given, and its hash. */
  datatype Hashed = Hashed(url: string, hash: string)

  /** The answer of a batch and the cache it leaves behind. */
  datatype Batch = Batch(response: Result<seq<Hashed>, Error>, cache: Cache)

  /** The argument of `generateHash`: one URL (a query parameter) or an array of them. */
  datatype Input = One(url: string) | Many(urls: seq<string>)

  /** The fields of the webhook's `repository` object the handler reads. */
  datatype Repository = Repository(pushedAt: Option<int>, organization: string, name: string, hasPages: bool)

  /** The webhook's reply: `ignored`, `success`, or an error (status 500). */
  datatype Reply = Ignored | Success | Failed(error: Error)

  /** The webhook's reply and the cache it leaves behind. */
  datatype Hook = Hook(reply: Reply, cache: Cache)

  /** The user-agent prefix GitHub's webhook deliveries carry. */
  const HookshotPrefix := "GitHub-Hookshot/"

  /** The combination string `fetchAndHashContent` builds from a URL, `None` when some
      fetch fails: the route logic below is stated over any such function. */
  type Site = string -> Option<string>

  /** The site function of a given web. */
  function SiteOf(web: Traversal.Web): Site {
    url => Traversal.FetchAndHashContent(web, url)
  }

  /** `hashContent(fetchAndHashContent(url))`: a failed walk yields no hash, and a
      successful one the digest of its combination string. */
  function HashUrl(site: Site, sha: string -> string, url: string): (r: Option<string>)
    ensures r.None? <==> site(url).None?
    ensures r.Some? ==> r.value == sha(site(url).value)
  {
    match site(url)
    case None => None
    case Some(combined) => Some(sha(combined))
  }

  /** `fetchAndSaveAppHash`: hash the site and store it under `url`, whatever was there. */
  function FetchAndSaveAppHash(site: Site, sha: string -> string, cache: Cache, url: string, lastUpdated: int)
    : (r: Result<Cache, Error>)
    ensures r.Ok? <==> site(url).Some?
    ensures r.Err? ==> r.error == FetchFailed(url)
    ensures r.Ok? ==> r.value.Keys == cache.Keys + {url}
    ensures r.Ok? ==> r.value[url] == Entry(sha(site(url).value), lastUpdated)
    ensures r.Ok? ==> forall k :: k in cache && k != url ==> r.value[k] == cache[k]
  {
    match HashUrl(site, sha, url)
    case None => Err(FetchFailed(url))
    case Some(hash) => Ok(cache[url := Entry(hash, lastUpdated)])
  }

  /** The answer of one callback of `generateHash`. `seen` is the cache as the callback
      found it: every callback reaches its `hashCache.has` test before any fetch
      completes, so in one batch that is the cache at the start of the batch. */
  function Answer(site: Site, sha: string -> string, seen: Cache, url: string): (r: Result<Hashed, Error>)
    ensures r.Ok? ==> r.value.url == url
    ensures Url.Normalize(url).None? <==> r == Err(InvalidUrl(url))
    ensures var key := Url.Normalize(url);
            key.Some? && GithubPages.Eligible(key.value) && key.value in seen
            ==> r == Ok(Hashed(url, seen[key.value].hash))
    ensures var key := Url.Normalize(url);
            key.Some? && !(GithubPages.Eligible(key.value) && key.value in seen)
            ==> (r.Ok? <==> HashUrl(site, sha, key.value).Some?)
                && (r.Ok? ==> r.value.hash == HashUrl(site, sha, key.value).value)
                && (r.Err? ==> r.error == FetchFailed(key.value))
  {
    match Url.Normalize(url)
    case None => Err(InvalidUrl(url))
    case Some(key) =>
      if GithubPages.Eligible(key) && key in seen then Ok(Hashed(url, seen[key].hash))
      else
        match HashUrl(site, sha, key)
        case None => Err(FetchFailed(key))
        case Some(hash) => Ok(Hashed(url, hash))
  }

  /** The cache write of one callback: an eligible URL that `seen` misses is fetched,
      hashed and stored with `lastUpdated = now`; nothing else is written. The cache only
      gains keys, the only key it can gain is the input's own, and it stays an extension
      of `seen`. */
  function Save(site: Site, sha: string -> string, now: int, seen: Cache, cache: Cache, url: string): (c: Cache)
    ensures cache.Keys <= c.Keys
    ensures forall k :: k in c && k !in cache ==> Url.Normalize(url) == Some(k)
    ensures Extends(site, sha, now, seen, cache) ==> Extends(site, sha, now, seen, c)
  {
    match Url.Normalize(url)
    case None => cache
    case Some(key) =>
      if GithubPages.Eligible(key) && key !in seen then
        StoreExtends(site, sha, now, seen, cache, key);
        match FetchAndSaveAppHash(site, sha, cache, key, now)
        case Ok(updated) => updated
        case Err(_) => cache
      else cache
  }

  /** Every write of a batch, in input order. Failing callbacks do not stop the others.
      The cache only gains keys, each the key of some input, and stays an extension of
      `seen`. */
  function SaveAll(site: Site, sha: string -> string, now: int, seen: Cache, cache: Cache, urls: seq<string>)
    : (c: Cache)
    ensures cache.Keys <= c.Keys
    ensures forall k :: k in c && k !in cache ==> exists i :: 0 <= i < |urls| && Url.Normalize(urls[i]) == Some(k)
    ensures Extends(site, sha, now, seen, cache) ==> Extends(site, sha, now, seen, c)
    decreases |urls|
  {
    if urls == [] then cache
    else
      var first := Save(site, sha, now, seen, cache, urls[0]);
      var c := SaveAll(site, sha, now, seen, first, urls[1..]);
      NewKeysCons(urls, cache, first, c);
      c
  }

  /** Keys new after the first write come from the first input; keys new after the rest
      come from the rest. */
  lemma NewKeysCons(urls: seq<string>, cache: Cache, first: Cache, c: Cache)
    requires urls != [] && first.Keys <= c.Keys
    requires forall k :: k in first && k !in cache ==> Url.Normalize(urls[0]) == Some(k)
    requires forall k :: k in c && k !in first ==> exists i :: 0 <= i < |urls[1..]| && Url.Normalize(urls[1..][i]) == Some(k)
    ensures forall k :: k in c && k !in cache ==> exists i :: 0 <= i < |urls| && Url.Normalize(urls[i]) == Some(k)
  {
    forall k | k in c && k !in cache
      ensures exists i :: 0 <= i < |urls| && Url.Normalize(urls[i]) == Some(k)
    {
      if k in first {
        assert Url.Normalize(urls[0]) == Some(k);
      } else {
        var i :| 0 <= i < |urls[1..]| && Url.Normalize(urls[1..][i]) == Some(k);
        assert urls[1..][i] == urls[i + 1];
      }
    }
  }

  /** `Promise.all`: every answer when all succeed, otherwise an error of a failing one
      (the first in input order). */
  function Collect(rs: seq<Result<Hashed, Error>>): (r: Result<seq<Hashed>, Error>)
    ensures r.Ok? <==> forall i :: 0 <= i < |rs| ==> rs[i].Ok?
    ensures r.Ok? ==> |r.value| == |rs| && forall i :: 0 <= i < |rs| ==> r.value[i] == rs[i].value
    ensures r.Err? ==> exists i :: 0 <= i < |rs| && rs[i] == Err(r.error)
  {
    if rs == [] then Ok([])
    else if rs[0].Err? then Err(rs[0].error)
    else
      var rest := Collect(rs[1..]);
      assert forall i :: 1 <= i < |rs| ==> rs[i] == rs[1..][i - 1];
      if rest.Err? then Err(rest.error)
      else Ok([rs[0].value] + rest.value)
  }

  lemma CollectOne(r: Result<Hashed, Error>)
    ensures Collect([r]) == if r.Ok? then Ok([r.value]) else Err(r.error)
  {
    assert [r][1..] == [];
    assert Collect([]) == Ok([]);
    if r.Ok? {
      assert [r.value] + [] == [r.value];
    }
  }

  /** The answers of a batch, each against the cache at the start of the batch. */
  function Answers(site: Site, sha: string -> string, seen: Cache, urls: seq<string>): (rs: seq<Result<Hashed, Error>>)
    ensures |rs| == |urls| && forall i :: 0 <= i < |urls| ==> rs[i] == Answer(site, sha, seen, urls[i])
  {
    seq(|urls|, i requires 0 <= i < |urls| => Answer(site, sha, seen, urls[i]))
  }

  /** The cache `after` only adds to `before`: kept entries are untouched, and each new key
      is an eligible URL whose site hashes to the stored hash, stamped `now`. */
  predicate Extends(site: Site, sha: string -> string, now: int, before: Cache, after: Cache) {
    && (forall k :: k in before ==> k in after && after[k] == before[k])
    && (forall k :: k in after && k !in before ==>
          GithubPages.Eligible(k) && HashUrl(site, sha, k) == Some(after[k].hash) && after[k].lastUpdated == now)
  }

  /** An eligible input whose site hashes has its key in the cache `c`. */
  predicate Covered(site: Site, sha: string -> string, c: Cache, url: string) {
    match Url.Normalize(url)
    case None => true
    case Some(key) => GithubPages.Eligible(key) && HashUrl(site, sha, key).Some? ==> key in c
  }

  lemma CoveredGrows(site: Site, sha: string -> string, c: Cache, d: Cache, url: string)
    requires Covered(site, sha, c, url) && c.Keys <= d.Keys
    ensures Covered(site, sha, d, url)
  {
  }

  /** Storing a freshly hashed eligible key that `seen` lacks keeps the cache an
      extension of `seen`. */
  lemma StoreExtends(site: Site, sha: string -> string, now: int, seen: Cache, cache: Cache, key: string)
    requires GithubPages.Eligible(key) && key !in seen
    ensures var r := FetchAndSaveAppHash(site, sha, cache, key, now);
            r.Ok? && Extends(site, sha, now, seen, cache) ==> Extends(site, sha, now, seen, r.value)
  {
    var r := FetchAndSaveAppHash(site, sha, cache, key, now);
    if r.Ok? {
      assert HashUrl(site, sha, key) == Some(r.value[key].hash);
    }
  }

  /** After one callback's write, its key is cached once its site hashes. */
  lemma SaveCovers(site: Site, sha: string -> string, now: int, seen: Cache, cache: Cache, url: string)
    requires seen.Keys <= cache.Keys
    ensures var c := Save(site, sha, now, seen, cache, url);
            cache.Keys <= c.Keys && Covered(site, sha, c, url)
  {
    var key := Url.Normalize(url);
    if key.Some? && GithubPages.Eligible(key.value) && key.value !in seen {
      var r := FetchAndSaveAppHash(site, sha, cache, key.value, now);
    }
  }

  /** After a batch, every eligible input whose site hashes is cached. */
  lemma {:induction false} SaveAllCovers(site: Site, sha: string -> string, now: int, seen: Cache, cache: Cache, urls: seq<string>)
    requires seen.Keys <= cache.Keys
    ensures var c := SaveAll(site, sha, now, seen, cache, urls);
            cache.Keys <= c.Keys && forall u :: u in urls ==> Covered(site, sha, c, u)
    decreases |urls|
  {
    if urls != [] {
      var first := Save(site, sha, now, seen, cache, urls[0]);
      SaveCovers(site, sha, now, seen, cache, urls[0]);
      SaveAllCovers(site, sha, now, seen, first, urls[1..]);
      var c := SaveAll(site, sha, now, seen, cache, urls);
      CoveredGrows(site, sha, first, c, urls[0]);
      assert forall u :: u in urls ==> u == urls[0] || u in urls[1..];
    }
  }

  /** What a batch's writes do to the cache: they only add to it, each new key is the key
      of an input, and every eligible input whose site hashes ends up cached. */
  lemma SaveAllFacts(site: Site, sha: string -> string, now: int, cache: Cache, urls: seq<string>)
    ensures var c := SaveAll(site, sha, now, cache, cache, urls);
            && Extends(site, sha, now, cache, c)
            && (forall k :: k in c && k !in cache ==> exists i :: 0 <= i < |urls| && Url.Normalize(urls[i]) == Some(k))
            && (forall u :: u in urls ==> Covered(site, sha, c, u))
  {
    SaveAllCovers(site, sha, now, cache, cache, urls);
  }

  /** An eligible answer that succeeds is the hash the cache `c` holds for its key. */
  predicate Agrees(site: Site, sha: string -> string, seen: Cache, c: Cache, url: string) {
    var r := Answer(site, sha, seen, url);
    r.Ok? && GithubPages.Eligible(Url.Normalize(url).value) ==> Url.Normalize(url).value in c && c[Url.Normalize(url).value].hash == r.value.hash
  }

  lemma CoveredAgrees(site: Site, sha: string -> string, now: int, seen: Cache, c: Cache, url: string)
    requires Extends(site, sha, now, seen, c) && Covered(site, sha, c, url)
    ensures Agrees(site, sha, seen, c, url)
  {
  }

  /** `generateHash` on an array of URLs: one answer per input, in input order, carrying
      the input as given; the cache only gains entries, each for an eligible input, and
      afterwards agrees with every eligible answer. */
  function Generate(site: Site, sha: string -> string, now: int, cache: Cache, urls: seq<string>): (b: Batch)
    ensures b.response.Ok? <==> forall i :: 0 <= i < |urls| ==> Answer(site, sha, cache, urls[i]).Ok?
    ensures b.response.Ok? ==>
              |b.response.value| == |urls| && forall i :: 0 <= i < |urls| ==> b.response.value[i] == Answer(site, sha, cache, urls[i]).value
    ensures b.response.Ok? ==> forall i :: 0 <= i < |urls| ==> b.response.value[i].url == urls[i]
    ensures b.response.Err? ==> exists i :: 0 <= i < |urls| && Answer(site, sha, cache, urls[i]) == Err(b.response.error)
    ensures Extends(site, sha, now, cache, b.cache)
    ensures forall k :: k in b.cache && k !in cache ==> exists i :: 0 <= i < |urls| && Url.Normalize(urls[i]) == Some(k)
    ensures forall i :: 0 <= i < |urls| ==> Agrees(site, sha, cache, b.cache, urls[i])
  {
    SaveAllFacts(site, sha, now, cache, urls);
    var c := SaveAll(site, sha, now, cache, cache, urls);
    forall i | 0 <= i < |urls|
      ensures Agrees(site, sha, cache, c, urls[i])
    {
      CoveredAgrees(site, sha, now, cache, c, urls[i]);
    }
    Batch(Collect(Answers(site, sha, cache, urls)), SaveAll(site, sha, now, cache, cache, urls))
  }

  /** `generateHash`: a single URL is wrapped into a one-element array. */
  function GenerateHash(site: Site, sha: string -> string, now: int, cache: Cache, input: Input): (b: Batch)
    ensures input.One? && b.response.Ok? ==> |b.response.value| == 1 && b.response.value[0].url == input.url
    ensures input.Many? && b.response.Ok? ==>
              |b.response.value| == |input.urls| && forall i :: 0 <= i < |input.urls| ==> b.response.value[i].url == input.urls[i]
    ensures Extends(site, sha, now, cache, b.cache)
  {
    match input
    case One(url) => Generate(site, sha, now, cache, [url])
    case Many(urls) => Generate(site, sha, now, cache, urls)
  }

  /** The `/gitwh` handler. A missing header or body field is the `TypeError` its
      `try`/`catch` turns into an error reply. */
  function Webhook(site: Site, sha: string -> string, now: int, cache: Cache,
                   userAgent: Option<string>, repository: Option<Repository>): (h: Hook)
    ensures h.reply.Success? <==>
              && userAgent.Some? && StartsWith(userAgent.value, HookshotPrefix)
              && repository.Some? && repository.value.hasPages
              && site(GithubPages.PagesUrl(repository.value.organization, repository.value.name)).Some?
    ensures h.reply.Ignored? <==>
              userAgent.Some? && (!StartsWith(userAgent.value, HookshotPrefix) || (repository.Some? && !repository.value.hasPages))
    ensures !h.reply.Success? ==> h.cache == cache
    ensures userAgent.None? ==> h.reply == Failed(MissingUserAgent)
    ensures h.reply.Success? ==>
              var repo := repository.value;
              var url := GithubPages.PagesUrl(repo.organization, repo.name);
              && h.cache.Keys == cache.Keys + {url}
              && h.cache[url] == Entry(sha(site(url).value), repo.pushedAt.GetOr(now))
              && forall k :: k in cache && k != url ==> h.cache[k] == cache[k]
  {
    match userAgent
    case None => Hook(Failed(MissingUserAgent), cache)
    case Some(agent) =>
      if !StartsWith(agent, HookshotPrefix) then Hook(Ignored, cache)
      else
        match repository
        case None => Hook(Failed(MissingRepository), cache)
        case Some(repo) =>
          if !repo.hasPages then Hook(Ignored, cache)
          else
            var url := GithubPages.PagesUrl(repo.organization, repo.name);
            match FetchAndSaveAppHash(site, sha, cache, url, repo.pushedAt.GetOr(now))
            case Err(e) => Hook(Failed(e), cache)
            case Ok(updated) => Hook(Success, updated)
  }

  /** A callback whose eligible key is either cached or unfetchable writes nothing. */
  lemma SaveIdle(site: Site, sha: string -> string, now: int, seen: Cache, cache: Cache, url: string)
    requires Covered(site, sha, seen, url)
    ensures Save(site, sha, now, seen, cache, url) == cache
  {
  }

  /** `SaveIdle` over a whole batch. */
  lemma {:induction false} SaveAllIdle(site: Site, sha: string -> string, now: int, seen: Cache, cache: Cache, urls: seq<string>)
    requires forall u :: u in urls ==> Covered(site, sha, seen, u)
    ensures SaveAll(site, sha, now, seen, cache, urls) == cache
    decreases |urls|
  {
    if urls != [] {
      assert urls[0] in urls;
      SaveIdle(site, sha, now, seen, cache, urls[0]);
      assert forall u :: u in urls[1..] ==> u in urls;
      SaveAllIdle(site, sha, now, seen, cache, urls[1..]);
    }
  }

  /** Answering against a cache that only added hashes of the current sites gives the
      same answer as against the original cache. */
  lemma AnswerStable(site: Site, sha: string -> string, now: int, seen: Cache, c: Cache, url: string)
    requires Extends(site, sha, now, seen, c)
    ensures Answer(site, sha, c, url) == Answer(site, sha, seen, url)
  {
  }

  /** A batch of eligible URLs that are all cached is answered from the cache alone: the
      sites are not consulted, the clock is not read, and the cache is left as it was. */
  lemma CachedIgnoresWeb(site: Site, other: Site, sha: string -> string, now: int, later: int,
                         cache: Cache, urls: seq<string>)
    requires forall i :: 0 <= i < |urls| ==>
               Url.Normalize(urls[i]).Some? && GithubPages.Eligible(Url.Normalize(urls[i]).value)
               && Url.Normalize(urls[i]).value in cache
    ensures Generate(site, sha, now, cache, urls) == Generate(other, sha, later, cache, urls)
    ensures var b := Generate(site, sha, now, cache, urls);
            && b.cache == cache
            && b.response.Ok?
            && |b.response.value| == |urls|
            && forall i :: 0 <= i < |urls| ==> b.response.value[i] == Hashed(urls[i], cache[Url.Normalize(urls[i]).value].hash)
  {
    SaveAllIdle(site, sha, now, cache, cache, urls);
    SaveAllIdle(other, sha, later, cache, cache, urls);
    assert Answers(site, sha, cache, urls) == Answers(other, sha, cache, urls);
  }

  /** A batch with no eligible URL leaves the cache alone, and its answers do not depend
      on what the cache holds. */
  lemma UncachedIgnoresCache(site: Site, sha: string -> string, now: int, later: int,
                             cache: Cache, other: Cache, urls: seq<string>)
    requires forall i :: 0 <= i < |urls| ==>
               Url.Normalize(urls[i]).None? || !GithubPages.Eligible(Url.Normalize(urls[i]).value)
    ensures Generate(site, sha, now, cache, urls).cache == cache
    ensures Generate(site, sha, now, cache, urls).response == Generate(site, sha, later, other, urls).response
  {
    SaveAllIdle(site, sha, now, cache, cache, urls);
    assert Answers(site, sha, cache, urls) == Answers(site, sha, other, urls);
  }

  /** A one-URL batch is that URL's answer and write. */
  lemma GenerateSingle(site: Site, sha: string -> string, now: int, cache: Cache, url: string)
    ensures var answer := Answer(site, sha, cache, url);
            Generate(site, sha, now, cache, [url])
            == Batch(if answer.Ok? then Ok([answer.value]) else Err(answer.error), Save(site, sha, now, cache, cache, url))
  {
    var answer := Answer(site, sha, cache, url);
    var b := Generate(site, sha, now, cache, [url]);
    assert b.response == Collect([answer]) by {
      assert Answers(site, sha, cache, [url]) == [answer];
    }
    CollectOne(answer);
    assert b.cache == Save(site, sha, now, cache, cache, url) by {
      var saved := Save(site, sha, now, cache, cache, url);
      assert [url][1..] == [];
      assert SaveAll(site, sha, now, cache, saved, []) == saved;
    }
  }

  /** An eligible URL the cache misses is fetched and hashed; on success the hash is
      answered and stored under the normalised key with `lastUpdated = now`, on failure
      nothing is stored. */
  lemma EligibleMiss(site: Site, sha: string -> string, now: int, cache: Cache, url: string, key: string)
    requires Url.Normalize(url) == Some(key) && GithubPages.Eligible(key) && key !in cache
    ensures var b := Generate(site, sha, now, cache, [url]);
            var content := site(key);
            && (content.Some? ==>
                  b == Batch(Ok([Hashed(url, sha(content.value))]), cache[key := Entry(sha(content.value), now)]))
            && (content.None? ==> b == Batch(Err(FetchFailed(key)), cache))
  {
    var content := site(key);
    var answer := Answer(site, sha, cache, url);
    GenerateSingle(site, sha, now, cache, url);
    if content.Some? {
      var hash := sha(content.value);
      assert answer == Ok(Hashed(url, hash));
      assert Save(site, sha, now, cache, cache, url) == cache[key := Entry(hash, now)];
    } else {
      assert answer == Err(FetchFailed(key));
      assert Save(site, sha, now, cache, cache, url) == cache;
    }
  }

  /** Repeating a batch against the cache it produced and the same sites, at any later
      clock reading, answers the same and writes nothing: every eligible site the first
      run could hash is now cached with that hash, and every other answer is recomputed
      from the same sites. */
  lemma RepeatHitsCache(site: Site, sha: string -> string, now: int, later: int, cache: Cache, urls: seq<string>)
    ensures var first := Generate(site, sha, now, cache, urls);
            Generate(site, sha, later, first.cache, urls) == first
  {
    var c := SaveAll(site, sha, now, cache, cache, urls);
    SaveAllFacts(site, sha, now, cache, urls);
    SaveAllIdle(site, sha, later, c, c, urls);
    forall i | 0 <= i < |urls|
      ensures Answer(site, sha, c, urls[i]) == Answer(site, sha, cache, urls[i])
    {
      AnswerStable(site, sha, now, cache, c, urls[i]);
    }
    assert Answers(site, sha, c, urls) == Answers(site, sha, cache, urls);
  }

  /** A one-URL request for an eligible cached key is answered from the cache. */
  lemma CachedSingle(site: Site, sha: string -> string, now: int, cache: Cache, url: string, key: string)
    requires Url.Normalize(url) == Some(key) && GithubPages.Eligible(key) && key in cache
    ensures Generate(site, sha, now, cache, [url]) == Batch(Ok([Hashed(url, cache[key].hash)]), cache)
  {
    GenerateSingle(site, sha, now, cache, url);
    SaveIdle(site, sha, now, cache, cache, url);
  }

  /** A successful webhook for a published site of the cached owner determines every later
      request for that site: the answer is the hash taken at the webhook, whatever the
      sites hold by then, and the request writes nothing. */
  lemma WebhookThenRead(site: Site, later: Site, sha: string -> string, now: int, after: int,
                        cache: Cache, agent: string, repo: Repository)
    requires repo.organization == GithubPages.CachedOwner
    requires repo.name != [] && GithubPages.IsWordChar(repo.name[0]) && '?' !in repo.name && '#' !in repo.name
    requires Webhook(site, sha, now, cache, Some(agent), Some(repo)).reply.Success?
    ensures var hooked := Webhook(site, sha, now, cache, Some(agent), Some(repo)).cache;
            var url := GithubPages.PagesUrl(repo.organization, repo.name);
            Generate(later, sha, after, hooked, [url])
            == Batch(Ok([Hashed(url, sha(site(url).value))]), hooked)
  {
    var hook := Webhook(site, sha, now, cache, Some(agent), Some(repo));
    var url := GithubPages.PagesUrl(repo.organization, repo.name);
    GithubPages.CachedPagesUrl(repo.name);
    CachedSingle(later, sha, after, hook.cache, url, url);
  }

  /** Over a web, hashing fails exactly when the walk from the URL fetches some URL the web
      lacks, the URL itself first of all. */
  lemma HashUrlOfWeb(web: Traversal.Web, sha: string -> string, url: string)
    ensures HashUrl(SiteOf(web), sha, url).None? <==> !(Collections.Elems(Traversal.Visit(web, url, {}).fetched) <= web.Keys)
    ensures url !in web ==> HashUrl(SiteOf(web), sha, url) == None
  {
    assert SiteOf(web)(url) == Traversal.Visit(web, url, {}).value;
  }

  /** A page without links hashes as its content followed by `_`. */
  lemma LeafPageHash(web: Traversal.Web, sha: string -> string, url: string)
    requires url in web && web[url].refs == []
    ensures HashUrl(SiteOf(web), sha, url) == Some(sha(web[url].content + "_"))
  {
    assert {} + {url} == {url};
    assert Traversal.Visit(web, url, {}) == Traversal.Expand(web, url, {url});
  }
}

=== FILE: pages.dfy ===
/** Which URLs the cache applies to: the test of `/https?:\/\/([\w-]+)\.github\.io\/([\w-]+)/`
    and the owner its first match captures (routes/hash.js), and the published-site URL
    the webhook builds. The regular expression is modelled by hand: JavaScript reports the
    leftmost match, and because `.` is not a word character the first group is always the
    whole run of word characters after the scheme. */
module GithubPages {
  import opened Wrappers
  import opened Strings
  import Url

  const PagesHost := ".github.io/"

  /** The only owner whose sites are cached. */
  const CachedOwner := "ranchimall"

  /** `[\w-]`. */
  predicate IsWordChar(c: char) {
    ('a' <= c <= 'z') || ('A' <= c <= 'Z') || ('0' <= c <= '9') || c == '_' || c == '-'
  }

  predicate IsWord(w: string) {
    forall i :: 0 <= i < |w| ==> IsWordChar(w[i])
  }

  /** The length of the run of word characters starting at `i`. */
  function WordRun(s: string, i: nat): (n: nat)
    requires i <= |s|
    ensures i + n <= |s|
    ensures IsWord(s[i..i + n])
    ensures i + n < |s| ==> !IsWordChar(s[i + n])
    decreases |s| - i
  {
    if i < |s| && IsWordChar(s[i]) then
      var m := WordRun(s, i + 1);
      assert s[i..i + 1 + m] == [s[i]] + s[i + 1..i + 1 + m];
      1 + m
    else 0
  }

  /** A run of word characters ended by a non-word character is exactly what `WordRun` measures. */
  lemma {:induction false} WordRunExact(s: string, i: nat, w: string)
    requires i + |w| < |s| && s[i..i + |w|] == w && IsWord(w) && !IsWordChar(s[i + |w|])
    ensures WordRun(s, i) == |w|
    decreases |w|
  {
    if w != [] {
      assert s[i] == w[0];
      WordRunExact(s, i + 1, w[1..]);
    }
  }

  /** The text the regex matches at its start, read declaratively: `scheme`, then an owner
      made of word characters, then `.github.io/`, then at least one word character. */
  predicate ShapeWith(t: string, scheme: string, owner: string) {
    var k := |scheme| + |owner| + |PagesHost|;
    && owner != [] && IsWord(owner)
    && k < |t| && t[..k] == scheme + owner + PagesHost && IsWordChar(t[k])
  }

  predicate Shape(t: string, owner: string) {
    ShapeWith(t, "http://", owner) || ShapeWith(t, "https://", owner)
  }

  /** The owner captured by a match starting exactly at position `p`, if one does. */
  function MatchAt(s: string, p: nat): (r: Option<string>)
    requires p <= |s|
    ensures r.Some? ==> Shape(s[p..], r.value)
  {
    var t := s[p..];
    var n := if StartsWith(t, "https://") then 8 else if StartsWith(t, "http://") then 7 else 0;
    if n == 0 then None
    else
      var m := WordRun(t, n);
      var k := n + m + |PagesHost|;
      if m > 0 && k < |t| && t[n + m..k] == PagesHost && IsWordChar(t[k]) then
        assert t[..k] == t[..n] + t[n..n + m] + t[n + m..k];
        Some(t[n..n + m])
      else None
  }

  /** The three parts of a text's prefix built from three strings. */
  lemma PrefixParts(t: string, a: string, b: string, c: string)
    requires |a| + |b| + |c| <= |t| && t[..|a| + |b| + |c|] == a + b + c
    ensures t[..|a|] == a && t[|a|..|a| + |b|] == b && t[|a| + |b|..|a| + |b| + |c|] == c
  {
    var k := |a| + |b| + |c|;
    forall i | 0 <= i < |a| ensures t[i] == a[i] {
      assert t[..k][i] == (a + b + c)[i];
    }
    forall i | 0 <= i < |b| ensures t[|a| + i] == b[i] {
      assert t[..k][|a| + i] == (a + b + c)[|a| + i];
    }
    forall i | 0 <= i < |c| ensures t[|a| + |b| + i] == c[i] {
      assert t[..k][|a| + |b| + i] == (a + b + c)[|a| + |b| + i];
    }
  }

  /** The scheme test of `MatchAt` finds the length of the scheme the text starts with. */
  lemma SchemeLength(t: string, scheme: string)
    requires (scheme == "http://" || scheme == "https://") && |scheme| <= |t| && t[..|scheme|] == scheme
    ensures (if StartsWith(t, "https://") then 8 else if StartsWith(t, "http://") then 7 else 0) == |scheme|
  {
    if scheme == "http://" {
      assert t[4] == ':';
    }
  }

  /** A text starting with `scheme` and then the rest of the regex's shape is matched
      with the owner it was built from. */
  lemma MatchAtScheme(t: string, scheme: string, owner: string)
    requires scheme == "http://" || scheme == "https://"
    requires ShapeWith(t, scheme, owner)
    ensures MatchAt(t, 0) == Some(owner)
  {
    var n := |scheme|;
    var k := n + |owner| + |PagesHost|;
    PrefixParts(t, scheme, owner, PagesHost);
    SchemeLength(t, scheme);
    assert t[n + |owner|] == PagesHost[0];
    WordRunExact(t, n, owner);
    assert t[0..] == t;
  }

  /** Where the regex matches is all that matters, not what precedes it. */
  lemma MatchAtSuffix(s: string, p: nat)
    requires p <= |s|
    ensures MatchAt(s, p) == MatchAt(s[p..], 0)
  {
    assert s[p..][0..] == s[p..];
  }

  /** Every text of the regex's shape is matched, with the owner it was built from. */
  lemma MatchAtComplete(s: string, p: nat, owner: string)
    requires p <= |s| && Shape(s[p..], owner)
    ensures MatchAt(s, p) == Some(owner)
  {
    MatchAtSuffix(s, p);
    if ShapeWith(s[p..], "https://", owner) {
      MatchAtScheme(s[p..], "https://", owner);
    } else {
      MatchAtScheme(s[p..], "http://", owner);
    }
  }

  /** `String.prototype.match`: the owner captured by the leftmost match at or after `p`. */
  function FirstMatch(s: string, p: nat): (r: Option<string>)
    requires p <= |s|
    ensures r.Some? ==> exists q :: p <= q <= |s| && MatchAt(s, q) == r && forall k :: p <= k < q ==> MatchAt(s, k).None?
    ensures r.None? ==> forall q :: p <= q <= |s| ==> MatchAt(s, q).None?
    decreases |s| - p
  {
    var here := MatchAt(s, p);
    if here.Some? then here
    else if p == |s| then None
    else
      var r := FirstMatch(s, p + 1);
      assert r.Some? ==> exists q :: p + 1 <= q <= |s| && MatchAt(s, q) == r && forall k :: p <= k < q ==> MatchAt(s, k).None?;
      r
  }

  /** The first capture group of the leftmost match, if the regex matches at all: the owner
      of the leftmost position where the text has the regex's shape. */
  function Owner(s: string): (r: Option<string>)
    ensures r.Some? ==> exists q :: 0 <= q <= |s| && Shape(s[q..], r.value) && forall k, o :: 0 <= k < q ==> !Shape(s[k..], o)
    ensures r.None? ==> forall q, o :: 0 <= q <= |s| ==> !Shape(s[q..], o)
  {
    ShapeMatches(s);
    FirstMatch(s, 0)
  }

  /** Wherever the text has the regex's shape, the match there succeeds. */
  lemma ShapeMatches(s: string)
    ensures forall q, o :: 0 <= q <= |s| && Shape(s[q..], o) ==> MatchAt(s, q).Some?
  {
    forall q, o | 0 <= q <= |s| && Shape(s[q..], o) ensures MatchAt(s, q).Some? {
      MatchAtComplete(s, q, o);
    }
  }

  lemma CachedOwnerIsWord()
    ensures CachedOwner != [] && IsWord(CachedOwner)
  {
    forall i | 0 <= i < |CachedOwner|
      ensures 'a' <= CachedOwner[i] <= 'z'
    {
    }
  }

  /** The published-site URL of the cached owner is already normalised and cached. */
  lemma CachedPagesUrl(name: string)
    requires name != [] && IsWordChar(name[0]) && '?' !in name && '#' !in name
    ensures Url.Normalize(PagesUrl(CachedOwner, name)) == Some(PagesUrl(CachedOwner, name))
    ensures Eligible(PagesUrl(CachedOwner, name))
  {
    CachedOwnerIsWord();
    PagesUrlOwner(CachedOwner, name);
  }

  /** The cache applies to this normalised URL: the leftmost position where the text has
      the regex's shape has the cached owner. */
  function Eligible(s: string): (b: bool)
    ensures b <==> exists q :: 0 <= q <= |s| && Shape(s[q..], CachedOwner) && forall k, o :: 0 <= k < q ==> !Shape(s[k..], o)
  {
    EligibleShape(s);
    Owner(s) == Some(CachedOwner)
  }

  /** The owner is the one of the leftmost shape, and a position has at most one owner. */
  lemma EligibleShape(s: string)
    ensures Owner(s) == Some(CachedOwner)
        <==> exists q :: 0 <= q <= |s| && Shape(s[q..], CachedOwner) && forall k, o :: 0 <= k < q ==> !Shape(s[k..], o)
  {
    if exists q :: 0 <= q <= |s| && Shape(s[q..], CachedOwner) && forall k, o :: 0 <= k < q ==> !Shape(s[k..], o) {
      var q :| 0 <= q <= |s| && Shape(s[q..], CachedOwner) && forall k, o :: 0 <= k < q ==> !Shape(s[k..], o);
      var r := Owner(s);
      assert r.Some?;
      var p :| 0 <= p <= |s| && Shape(s[p..], r.value) && forall k, o :: 0 <= k < p ==> !Shape(s[k..], o);
      assert p == q;
      MatchAtComplete(s, q, CachedOwner);
      MatchAtComplete(s, q, r.value);
    }
  }

  /** `https://<organization>.github.io/<name>`, the key the webhook refreshes. For a
      word-character organization and a name without `?` or `#`, it parses into host
      `<organization>.github.io` and path `/<name>`, and it is its own normal form, so the
      key the webhook refreshes is the key a lookup of the same text reads. */
  function PagesUrl(organization: string, name: string): (r: string)
    ensures organization != [] && IsWord(organization) && '?' !in name && '#' !in name
            ==> Url.Parse(r) == Some(Url.Url("https", organization + ".github.io", "/" + name, None, None))
    ensures organization != [] && IsWord(organization) && '?' !in name && '#' !in name
            ==> Url.Normalize(r) == Some(r)
  {
    var r := "https://" + organization + PagesHost + name;
    if organization != [] && IsWord(organization) && '?' !in name && '#' !in name then
      assert r == "https://" + (organization + ".github.io") + ("/" + name);
      WordHasNoDelimiters(organization);
      assert '/' !in ".github.io" && '?' !in ".github.io" && '#' !in ".github.io";
      Url.ParseHttps(organization + ".github.io", "/" + name);
      Url.NormalizeHttps(organization + ".github.io", "/" + name);
      r
    else r
  }

  /** A published-site URL built from a word-character organization and a name starting
      with a word character is matched with its organization
      as owner, so it is cached exactly when the organization is the cached owner. */
  lemma PagesUrlOwner(organization: string, name: string)
    requires organization != [] && IsWord(organization) && name != [] && IsWordChar(name[0])
    ensures Owner(PagesUrl(organization, name)) == Some(organization)
    ensures Eligible(PagesUrl(organization, name)) <==> organization == CachedOwner
  {
    var s := PagesUrl(organization, name);
    var k := 8 + |organization| + |PagesHost|;
    assert s[0..] == s;
    assert s[..k] == "https://" + organization + PagesHost;
    assert s[k] == name[0];
    MatchAtComplete(s, 0, organization);
  }

  lemma WordHasNoDelimiters(w: string)
    requires IsWord(w)
    ensures '/' !in w && '?' !in w && '#' !in w
  {
  }

}

=== FILE: strings.dfy ===
/** String operations the JavaScript source relies on: `startsWith`, `endsWith`, the
    split at a first occurrence done by a URL parser, and `Array.prototype.join`. */
module Strings {
  import opened Wrappers

  predicate StartsWith(s: string, prefix: string) {
    |prefix| <= |s| && s[..|prefix|] == prefix
  }

  predicate EndsWith(s: string, suffix: string) {
    |suffix| <= |s| && s[|s| - |suffix|..] == suffix
  }

  /** Splits `s` at the first occurrence of `c`: the part before it, and the part after it
      when `c` occurs at all. */
  function Split(s: string, c: char): (r: (string, Option<string>))
    ensures c !in r.0
    ensures r.1.None? ==> r.0 == s
    ensures r.1.Some? ==> s == r.0 + [c] + r.1.value
  {
    if s == [] then ([], None)
    else if s[0] == c then ([], Some(s[1..]))
    else
      var (before, after) := Split(s[1..], c);
      ([s[0]] + before, after)
  }

  /** Without the separator there is nothing to split off. */
  lemma SplitAbsent(s: string, c: char)
    requires c !in s
    ensures Split(s, c) == (s, None)
  {
  }

  /** The split happens exactly at the first occurrence of the separator. */
  lemma {:induction false} SplitFirst(a: string, c: char, b: string)
    requires c !in a
    ensures Split(a + [c] + b, c) == (a, Some(b))
  {
    if a != [] {
      var s := a + [c] + b;
      SplitFirst(a[1..], c, b);
      assert s[0] == a[0] != c;
      assert s[1..] == a[1..] + [c] + b;
      assert [a[0]] + a[1..] == a;
    }
  }

  /** `parts.join(sep)`: the empty list joins to the empty string; otherwise the text
      opens with the first part and closes with the last. */
  function Join(sep: string, parts: seq<string>): (r: string)
    ensures parts == [] ==> r == ""
    ensures parts != [] ==> StartsWith(r, parts[0]) && EndsWith(r, parts[|parts| - 1])
  {
    if parts == [] then ""
    else if |parts| == 1 then parts[0]
    else
      var rest := Join(sep, parts[1..]);
      StartsConcat(parts[0], sep + rest);
      EndsConcat(parts[0] + sep, rest, parts[|parts| - 1]);
      parts[0] + sep + rest
  }

  lemma StartsConcat(a: string, b: string)
    ensures StartsWith(a + b, a)
  {
    assert (a + b)[..|a|] == a;
  }

  lemma EndsConcat(a: string, b: string, suffix: string)
    requires EndsWith(b, suffix)
    ensures EndsWith(a + b, suffix)
  {
    assert (a + b)[|a + b| - |suffix|..] == b[|b| - |suffix|..];
  }

  /** Joining two non-empty lists in a row is joining each and putting one separator
      between them. */
  lemma {:induction false} JoinAppend(sep: string, a: seq<string>, b: seq<string>)
    requires a != [] && b != []
    ensures Join(sep, a + b) == Join(sep, a) + sep + Join(sep, b)
    decreases |a|
  {
    var ab := a + b;
    assert ab[0] == a[0] && |ab| >= 2;
    if |a| == 1 {
      assert ab[1..] == b;
      assert Join(sep, ab) == a[0] + sep + Join(sep, b);
    } else {
      assert ab[1..] == a[1..] + b;
      JoinAppend(sep, a[1..], b);
      var x, y, z := Join(sep, a[1..]), Join(sep, b), a[0] + sep;
      assert Join(sep, ab) == z + (x + sep + y);
      assert Join(sep, a) == z + x;
      Regroup(z, x, sep, y);
    }
  }

  lemma Regroup(z: string, x: string, sep: string, y: string)
    ensures z + (x + sep + y) == (z + x) + sep + y
  {
  }
}

=== FILE: traversal.dfy ===
/** `fetchAndHashContent` (routes/hash.js): the walk over linked stylesheets and scripts
    that builds the combination string later digested with SHA-256.

    The web is a finite map from URL to the fetched text and the references extracted
    from it; a URL missing from the map is a failed fetch. One sequential schedule is
    modelled, the one the JavaScript can exhibit: when a page has been fetched, the
    callbacks of `linkedResources.map` run in document order up to their first `await`,
    so every sibling is resolved, checked against the visited set and added to it before
    any sibling's response is processed (each callback's request may already be out); the
    fresh siblings' responses are then walked one after the other. */
module Traversal {
  import opened Wrappers
  import opened Strings
  import opened Collections

  /** A reference as Node's legacy `url.parse` reports it; `path` includes any query. */
  datatype Ref = Ref(hostname: Option<string>, href: string, path: string)

  /** A fetched body and the `link[rel="stylesheet"], script[src]` references found in it,
      in document order. */
  datatype Resource = Resource(content: string, refs: seq<Ref>)

  type Web = map<string, Resource>

  /** `resourceUrl.hostname` is truthy. */
  predicate HasHost(r: Ref) {
    r.hostname.Some? && r.hostname.value != ""
  }

  /** Resolving this reference makes sure the base ends in `/`. */
  predicate AppendsSlash(r: Ref) {
    !HasHost(r) && !StartsWith(r.path, "/")
  }

  /** Where the `i`-th reference of a page at `base` points, stated without threading:
      an absolute reference keeps its `href`; a relative one is appended to the base, which
      carries a trailing `/` once any reference up to and including this one has asked for it. */
  function ResolvedAt(base: string, refs: seq<Ref>, i: nat): (r: string)
    requires i < |refs|
    ensures HasHost(refs[i]) ==> r == refs[i].href
    ensures !HasHost(refs[i]) ==> (r == base + refs[i].path || (r == base + "/" + refs[i].path && !EndsWith(base, "/")))
    ensures AppendsSlash(refs[i]) ==> r == (if EndsWith(base, "/") then base else base + "/") + refs[i].path
  {
    if HasHost(refs[i]) then refs[i].href
    else
      var slashed := !EndsWith(base, "/") && exists j :: 0 <= j <= i && AppendsSlash(refs[j]);
      (if slashed then base + "/" else base) + refs[i].path
  }

  /** One step of the sibling loop: the absolute URL of `r`, and the value of `url`
      that the following siblings see. */
  function Resolve(base: string, r: Ref): (res: (string, string))
    ensures res.1 == base || (res.1 == base + "/" && AppendsSlash(r) && !EndsWith(base, "/"))
    ensures AppendsSlash(r) ==> EndsWith(res.1, "/")
  {
    if HasHost(r) then (r.href, base)
    else
      var b := if !StartsWith(r.path, "/") && !EndsWith(base, "/") then base + "/" else base;
      (b + r.path, b)
  }

  /** After the first step, the remaining siblings resolve as they would have from the start. */
  lemma ResolvedShift(base: string, refs: seq<Ref>, i: nat)
    requires 1 <= i < |refs|
    ensures ResolvedAt(Resolve(base, refs[0]).1, refs[1..], i - 1) == ResolvedAt(base, refs, i)
  {
    var next := Resolve(base, refs[0]).1;
    var rest := refs[1..];
    if !HasHost(refs[i]) {
      var before := exists j :: 0 <= j <= i && AppendsSlash(refs[j]);
      var after := exists j :: 0 <= j <= i - 1 && AppendsSlash(rest[j]);
      if after {
        var j :| 0 <= j <= i - 1 && AppendsSlash(rest[j]);
        assert AppendsSlash(refs[j + 1]);
      }
      if before && !AppendsSlash(refs[0]) {
        var j :| 0 <= j <= i && AppendsSlash(refs[j]);
        assert j != 0;
        assert AppendsSlash(rest[j - 1]);
      }
      if AppendsSlash(refs[0]) {
        assert before;
      }
      assert "/" == [] + "/";
    }
  }

  /** A resolved link: its path label, its absolute URL, and whether this call fetches it
      (`false` when `fetchAndHashContent` finds it already visited and returns `""`). */
  datatype Target = Target(path: string, url: string, fetches: bool)

  function FreshUrls(ts: seq<Target>): set<string> {
    if ts == [] then {} else (if ts[0].fetches then {ts[0].url} else {}) + FreshUrls(ts[1..])
  }

  lemma {:induction false} FreshUrlsMember(ts: seq<Target>, x: string)
    ensures x in FreshUrls(ts) <==> exists i :: 0 <= i < |ts| && ts[i].fetches && ts[i].url == x
  {
    if ts != [] {
      FreshUrlsMember(ts[1..], x);
      if x in FreshUrls(ts[1..]) {
        var i :| 0 <= i < |ts[1..]| && ts[1..][i].fetches && ts[1..][i].url == x;
        assert ts[i + 1] == ts[1..][i];
      }
      if exists i :: 0 <= i < |ts| && ts[i].fetches && ts[i].url == x {
        var i :| 0 <= i < |ts| && ts[i].fetches && ts[i].url == x;
        if i > 0 {
          assert ts[1..][i - 1] == ts[i];
        }
      }
    }
  }

  predicate FreshDistinct(ts: seq<Target>) {
    forall i, j :: 0 <= i < j < |ts| && ts[i].fetches && ts[j].fetches ==> ts[i].url != ts[j].url
  }

  /** The first target's URL is fetched by no later sibling. */
  lemma FreshUrlsHead(ts: seq<Target>)
    requires ts != [] && FreshDistinct(ts)
    ensures FreshDistinct(ts[1..])
    ensures ts[0].fetches ==> ts[0].url !in FreshUrls(ts[1..])
  {
    var rest := ts[1..];
    FreshUrlsMember(rest, ts[0].url);
    forall i, j | 0 <= i < j < |rest| && rest[i].fetches && rest[j].fetches ensures rest[i].url != rest[j].url {
      assert rest[i] == ts[i + 1] && rest[j] == ts[j + 1];
    }
  }

  /** A target is fetched exactly when its URL was neither visited nor claimed earlier. */
  predicate FetchesFirst(ts: seq<Target>, visited: set<string>) {
    forall i :: 0 <= i < |ts| ==>
      (ts[i].fetches <==> ts[i].url !in visited && forall j :: 0 <= j < i ==> ts[j].url != ts[i].url)
  }

  /** No earlier target of `[t] + rest` shares `x`'s URL exactly when `t` does not and no
      earlier target of `rest` does. */
  lemma EarlierCons(t: Target, rest: seq<Target>, i: nat, x: string)
    requires 1 <= i <= |rest|
    ensures (forall j :: 0 <= j < i ==> ([t] + rest)[j].url != x)
        <==> (t.url != x && forall j :: 0 <= j < i - 1 ==> rest[j].url != x)
  {
    var ts := [t] + rest;
    if t.url != x && forall j :: 0 <= j < i - 1 ==> rest[j].url != x {
      forall j | 0 <= j < i ensures ts[j].url != x {
        if j > 0 {
          assert ts[j] == rest[j - 1];
        }
      }
    }
    if forall j :: 0 <= j < i ==> ts[j].url != x {
      assert ts[0] == t;
      forall j | 0 <= j < i - 1 ensures rest[j].url != x {
        assert ts[j + 1] == rest[j];
      }
    }
  }

  lemma FetchesFirstCons(visited: set<string>, t: Target, rest: seq<Target>)
    requires t.fetches <==> t.url !in visited
    requires FetchesFirst(rest, visited + {t.url})
    ensures FetchesFirst([t] + rest, visited)
  {
    var ts := [t] + rest;
    forall i | 0 <= i < |ts|
      ensures ts[i].fetches <==> ts[i].url !in visited && forall j :: 0 <= j < i ==> ts[j].url != ts[i].url
    {
      if i > 0 {
        assert ts[i] == rest[i - 1];
        EarlierCons(t, rest, i, ts[i].url);
      }
    }
  }

  /** The target of a page's first remaining reference. */
  function FirstTarget(base: string, r: Ref, visited: set<string>): Target {
    var url := Resolve(base, r).0;
    Target(r.path, url, url !in visited)
  }

  /** Paths and resolved URLs of the first target followed by the claims of the rest. */
  lemma ClaimTargets(base: string, refs: seq<Ref>, visited: set<string>, rest: seq<Target>)
    requires refs != []
    requires |rest| == |refs| - 1
    requires forall i :: 0 <= i < |refs| - 1 ==>
               rest[i].path == refs[1..][i].path && rest[i].url == ResolvedAt(Resolve(base, refs[0]).1, refs[1..], i)
    ensures var ts := [FirstTarget(base, refs[0], visited)] + rest;
            forall i :: 0 <= i < |refs| ==> ts[i].path == refs[i].path && ts[i].url == ResolvedAt(base, refs, i)
  {
    var ts := [FirstTarget(base, refs[0], visited)] + rest;
    forall i | 0 <= i < |refs| ensures ts[i].path == refs[i].path && ts[i].url == ResolvedAt(base, refs, i) {
      if i > 0 {
        assert ts[i] == rest[i - 1];
        ResolvedShift(base, refs, i);
      }
    }
  }

  /** Claiming the first reference in front of the claims of the rest. */
  lemma ClaimStep(base: string, refs: seq<Ref>, visited: set<string>, rest: seq<Target>, claimed: set<string>)
    requires refs != []
    requires |rest| == |refs| - 1
    requires forall i :: 0 <= i < |refs| - 1 ==>
               rest[i].path == refs[1..][i].path && rest[i].url == ResolvedAt(Resolve(base, refs[0]).1, refs[1..], i)
    requires FetchesFirst(rest, visited + {Resolve(base, refs[0]).0})
    requires claimed == visited + {Resolve(base, refs[0]).0} + FreshUrls(rest)
    ensures var ts := [FirstTarget(base, refs[0], visited)] + rest;
            && (forall i :: 0 <= i < |refs| ==> ts[i].path == refs[i].path && ts[i].url == ResolvedAt(base, refs, i))
            && FetchesFirst(ts, visited)
            && claimed == visited + FreshUrls(ts)
  {
    var t := FirstTarget(base, refs[0], visited);
    ClaimTargets(base, refs, visited, rest);
    FetchesFirstCons(visited, t, rest);
    assert ([t] + rest)[1..] == rest;
  }

  /** The synchronous part of the sibling callbacks: resolve each reference in document
      order, threading the base, and mark each target visited. A target is fetched exactly
      when it was neither visited before nor claimed by an earlier sibling. */
  function Claim(base: string, refs: seq<Ref>, visited: set<string>): (r: (seq<Target>, set<string>))
    ensures |r.0| == |refs|
    ensures forall i :: 0 <= i < |refs| ==> r.0[i].path == refs[i].path && r.0[i].url == ResolvedAt(base, refs, i)
    ensures FetchesFirst(r.0, visited)
    ensures r.1 == visited + FreshUrls(r.0)
    decreases |refs|
  {
    if refs == [] then ([], visited)
    else
      var (url, next) := Resolve(base, refs[0]);
      var (rest, claimed) := Claim(next, refs[1..], visited + {url});
      ClaimStep(base, refs, visited, rest, claimed);
      ([FirstTarget(base, refs[0], visited)] + rest, claimed)
  }

  /** Targets claimed together are fetched at most once each, and none was visited before. */
  lemma ClaimFacts(base: string, refs: seq<Ref>, visited: set<string>)
    ensures FreshDistinct(Claim(base, refs, visited).0)
    ensures FreshUrls(Claim(base, refs, visited).0) !! visited
  {
    var ts := Claim(base, refs, visited).0;
    forall x | x in FreshUrls(ts) ensures x !in visited {
      FreshUrlsMember(ts, x);
    }
  }

  /** What one call produces: its value (`None` when a fetch failed), the visited set
      afterwards, and the URLs it fetched, in the order the modelled schedule processes
      their responses (the requests of siblings all go out before any of them is walked). */
  datatype Step<T> = Step(value: Option<T>, visited: set<string>, fetched: seq<string>)

  /** The termination measure: URLs of the web not yet visited. */
  function Unvisited(web: Web, visited: set<string>): nat {
    |web.Keys - visited|
  }

  predicate FreshInWeb(ts: seq<Target>, web: Web) {
    exists i :: 0 <= i < |ts| && ts[i].fetches && ts[i].url in web
  }

  /** `linkedResource.join('_')` applied to `` `${path}_${resourceContent}` `` per link. */
  function Labels(ts: seq<Target>, results: seq<string>): (r: seq<string>)
    requires |results| == |ts|
    ensures |r| == |ts|
    ensures forall i :: 0 <= i < |ts| ==> r[i] == ts[i].path + "_" + results[i]
  {
    if ts == [] then [] else [ts[0].path + "_" + results[0]] + Labels(ts[1..], results[1..])
  }

  /** `` `${content}_${linkedResource.join('_')}` ``: the page's own content and `_` come
      first, a page without links ends there, and otherwise the text closes with the label
      of the last link. */
  function Combine(content: string, labels: seq<string>): (r: string)
    ensures StartsWith(r, content + "_")
    ensures labels == [] ==> r == content + "_"
    ensures labels != [] ==> EndsWith(r, labels[|labels| - 1])
  {
    var joined := Join("_", labels);
    StartsConcat(content + "_", joined);
    if labels == [] then content + "_" + joined
    else
      EndsConcat(content + "_", joined, labels[|labels| - 1]);
      content + "_" + joined
  }

  /** Claiming a fetchable link strictly reduces the unvisited part of the web. */
  lemma ClaimShrinks(web: Web, ts: seq<Target>, visited: set<string>, claimed: set<string>)
    requires FreshUrls(ts) !! visited && claimed == visited + FreshUrls(ts)
    ensures visited <= claimed
    ensures FreshInWeb(ts, web) ==> Unvisited(web, claimed) < Unvisited(web, visited)
  {
    if FreshInWeb(ts, web) {
      var i :| 0 <= i < |ts| && ts[i].fetches && ts[i].url in web;
      FreshUrlsMember(ts, ts[i].url);
      DiffShrinks(web.Keys, visited, claimed, ts[i].url);
    }
  }

  lemma FreshInWebTail(ts: seq<Target>, web: Web)
    requires ts != []
    ensures FreshInWeb(ts[1..], web) ==> FreshInWeb(ts, web)
  {
    if FreshInWeb(ts[1..], web) {
      var i :| 0 <= i < |ts[1..]| && ts[1..][i].fetches && ts[1..][i].url in web;
      assert ts[i + 1] == ts[1..][i];
    }
  }

  /** What a walk starting from `visited` guarantees about its fetches, when it was entrusted
      with fetching the already-claimed URLs `mine`: it fetches no URL twice, marks every
      URL it fetches as visited, fetches nothing visited before except `mine`, only lets the
      visited set grow, succeeds exactly when every fetch found its URL, and on success has
      visited exactly what it fetched, `mine` included. */
  predicate Walked<T>(web: Web, visited: set<string>, mine: set<string>, s: Step<T>) {
    && visited <= s.visited
    && Distinct(s.fetched)
    && Elems(s.fetched) <= s.visited
    && (forall x :: x in s.fetched ==> x in mine || x !in visited)
    && (s.value.Some? <==> Elems(s.fetched) <= web.Keys)
    && (s.value.Some? ==> s.visited == visited + Elems(s.fetched) && mine <= Elems(s.fetched))
  }

  /** A failed walk stays a walk when it was entrusted with more. */
  lemma WalkedWiden<T, U>(web: Web, visited: set<string>, mine: set<string>, more: set<string>, s: Step<T>, r: Step<U>)
    requires Walked(web, visited, mine, s) && mine <= more
    requires s.value.None? && r == Step(None, s.visited, s.fetched)
    ensures Walked(web, visited, more, r)
  {
  }

  /** Two walks run one after the other form one walk. */
  lemma WalkedConcat<T, U, V>(web: Web, visited: set<string>, mine1: set<string>, mine2: set<string>,
                              s1: Step<T>, s2: Step<U>, r: Step<V>)
    requires mine1 + mine2 <= visited && mine1 !! mine2
    requires Walked(web, visited, mine1, s1) && s1.value.Some?
    requires Walked(web, s1.visited, mine2, s2)
    requires r.value.Some? == s2.value.Some? && r.visited == s2.visited && r.fetched == s1.fetched + s2.fetched
    ensures Walked(web, visited, mine1 + mine2, r)
  {
    ElemsConcat(s1.fetched, s2.fetched);
    assert Elems(s1.fetched) !! Elems(s2.fetched);
    DistinctConcat(s1.fetched, s2.fetched);
  }

  /** Fetching `url` and then walking its claimed links is a walk entrusted with `url`. */
  lemma WalkedPrepend<T, U>(web: Web, visited: set<string>, url: string, mine: set<string>, claimed: set<string>,
                            kids: Step<T>, r: Step<U>)
    requires url in visited && url in web
    requires mine !! visited && claimed == visited + mine
    requires Walked(web, claimed, mine, kids)
    requires r.value.Some? == kids.value.Some? && r.visited == kids.visited && r.fetched == [url] + kids.fetched
    ensures Walked(web, visited, {url}, r)
  {
    ElemsConcat([url], kids.fetched);
    DistinctConcat([url], kids.fetched);
  }

  /** `fetchAndHashContent` for a URL already added to the visited set: fetch it, claim its
      links, expand the fresh ones, combine. */
  function Expand(web: Web, url: string, visited: set<string>): (s: Step<string>)
    requires url in visited
    ensures Walked(web, visited, {url}, s)
    ensures s.fetched != [] && s.fetched[0] == url
    ensures s.value.Some? ==> url in web && StartsWith(s.value.value, web[url].content + "_")
    ensures url in web && web[url].refs == [] ==> s.value == Some(web[url].content + "_")
    decreases if url in web then Unvisited(web, visited) + 1 else 0, 1, 0
  {
    if url !in web then Step(None, visited, [url])
    else
      var page := web[url];
      var (targets, claimed) := Claim(url, page.refs, visited);
      ClaimFacts(url, page.refs, visited);
      ClaimShrinks(web, targets, visited, claimed);
      var kids := ExpandAll(web, targets, claimed, Unvisited(web, visited) + 1);
      var fetched := [url] + kids.fetched;
      var s := if kids.value.None? then Step(None, kids.visited, fetched)
               else Step(Some(Combine(page.content, Labels(targets, kids.value.value))), kids.visited, fetched);
      WalkedPrepend(web, visited, url, FreshUrls(targets), claimed, kids, s);
      s
  }

  /** Expanding no targets, or one already-visited target, contributes `""` per target. */
  lemma ResultsCons(ts: seq<Target>, h: string, rs: seq<string>)
    requires ts != [] && |rs| == |ts| - 1
    requires !ts[0].fetches ==> h == ""
    requires forall i :: 0 <= i < |ts| - 1 && !ts[1..][i].fetches ==> rs[i] == ""
    ensures forall i :: 0 <= i < |ts| && !ts[i].fetches ==> ([h] + rs)[i] == ""
  {
    forall i | 1 <= i < |ts| && !ts[i].fetches ensures ([h] + rs)[i] == "" {
      assert ts[1..][i - 1] == ts[i];
    }
  }

  /** What walking the first of several claimed targets may rely on. */
  lemma ExpandAllHead(web: Web, ts: seq<Target>, visited: set<string>, bound: nat)
    requires ts != [] && FreshUrls(ts) <= visited && FreshDistinct(ts)
    requires FreshInWeb(ts, web) ==> Unvisited(web, visited) + 1 < bound
    ensures ts[0].fetches ==> ts[0].url in visited && (ts[0].url in web ==> Unvisited(web, visited) + 1 < bound)
    ensures var mine := if ts[0].fetches then {ts[0].url} else {};
            FreshUrls(ts) == mine + FreshUrls(ts[1..]) && mine !! FreshUrls(ts[1..])
    ensures FreshDistinct(ts[1..])
  {
    FreshUrlsHead(ts);
  }

  /** After the first target's walk succeeded, the rest may be walked from where it
      left the visited set. */
  lemma ExpandAllTail<T>(web: Web, ts: seq<Target>, visited: set<string>, bound: nat, mine: set<string>, head: Step<T>)
    requires ts != [] && FreshUrls(ts) <= visited && FreshDistinct(ts[1..])
    requires FreshInWeb(ts, web) ==> Unvisited(web, visited) + 1 < bound
    requires FreshUrls(ts) == mine + FreshUrls(ts[1..])
    requires Walked(web, visited, mine, head) && head.value.Some?
    ensures FreshUrls(ts[1..]) <= head.visited
    ensures FreshInWeb(ts[1..], web) ==> Unvisited(web, head.visited) + 1 < bound
  {
    DiffMonotone(web.Keys, visited, head.visited);
    FreshInWebTail(ts, web);
  }

  /** The asynchronous part of the sibling callbacks: expand the claimed targets in
      document order; an already-visited target contributes `""`. */
  function ExpandAll(web: Web, ts: seq<Target>, visited: set<string>, bound: nat): (s: Step<seq<string>>)
    requires FreshUrls(ts) <= visited
    requires FreshDistinct(ts)
    requires bound >= 1
    requires FreshInWeb(ts, web) ==> Unvisited(web, visited) + 1 < bound
    ensures Walked(web, visited, FreshUrls(ts), s)
    ensures s.value.Some? ==> |s.value.value| == |ts|
    ensures s.value.Some? ==> forall i :: 0 <= i < |ts| && !ts[i].fetches ==> s.value.value[i] == ""
    decreases bound, 0, |ts|
  {
    if ts == [] then Step(Some([]), visited, [])
    else
      var t := ts[0];
      var rest := ts[1..];
      var mine := if t.fetches then {t.url} else {};
      ExpandAllHead(web, ts, visited, bound);
      var head := if t.fetches then Expand(web, t.url, visited) else Step(Some(""), visited, []);
      if head.value.None? then
        var s := Step(None, head.visited, head.fetched);
        WalkedWiden(web, visited, mine, FreshUrls(ts), head, s);
        s
      else
        ExpandAllTail(web, ts, visited, bound, mine, head);
        var tail := ExpandAll(web, rest, head.visited, bound);
        var fetched := head.fetched + tail.fetched;
        var s := if tail.value.None? then Step(None, tail.visited, fetched)
                 else Step(Some([head.value.value] + tail.value.value), tail.visited, fetched);
        WalkedConcat(web, visited, mine, FreshUrls(rest), head, tail, s);
        if tail.value.None? then s
        else
          ResultsCons(ts, head.value.value, tail.value.value);
          s
  }

  /** A walk entrusted with `url` right after adding it to `visited`, seen from before
      the addition. */
  lemma WalkedFromFresh(web: Web, url: string, visited: set<string>, s: Step<string>)
    requires url !in visited
    requires Walked(web, visited + {url}, {url}, s) && s.fetched != [] && s.fetched[0] == url
    ensures Elems(s.fetched) !! visited && url in s.visited && visited <= s.visited
    ensures Distinct(s.fetched) && Elems(s.fetched) <= s.visited
    ensures s.value.Some? <==> Elems(s.fetched) <= web.Keys
    ensures s.value.Some? ==> s.visited == visited + Elems(s.fetched)
  {
    var tail := s.fetched[1..];
    assert s.fetched == [url] + tail;
    ElemsConcat([url], tail);
    forall x | x in tail ensures x != url && x !in visited {
      var k :| 0 <= k < |tail| && tail[k] == x;
      assert s.fetched[k + 1] == x;
    }
  }

  /** `fetchAndHashContent(url, visitedUrls)`: an already-visited URL yields `""` and
      fetches nothing; otherwise the URL is added to the set before it is fetched. */
  function Visit(web: Web, url: string, visited: set<string>): (s: Step<string>)
    ensures url in visited ==> s == Step(Some(""), visited, [])
    ensures url !in visited ==> s.fetched != [] && s.fetched[0] == url && Elems(s.fetched) !! visited
    ensures url !in visited ==> url in s.visited
    ensures visited <= s.visited
    ensures Distinct(s.fetched)
    ensures Elems(s.fetched) <= s.visited
    ensures s.value.Some? <==> Elems(s.fetched) <= web.Keys
    ensures s.value.Some? ==> s.visited == visited + Elems(s.fetched)
  {
    if url in visited then Step(Some(""), visited, [])
    else
      var s := Expand(web, url, visited + {url});
      WalkedFromFresh(web, url, visited, s);
      s
  }

  /** The top-level call with a fresh visited set; `None` when some fetch failed. */
  function FetchAndHashContent(web: Web, url: string): (r: Option<string>)
    ensures url !in web ==> r == None
    ensures r.Some? ==> url in web && StartsWith(r.value, web[url].content + "_")
    ensures url in web && web[url].refs == [] ==> r == Some(web[url].content + "_")
  {
    Visit(web, url, {}).value
  }

  /** Every URL is fetched at most once, so a successful walk fetches at most as many
      resources as the web holds, however the links loop. */
  lemma FetchCountBound(web: Web, url: string)
    requires Visit(web, url, {}).value.Some?
    ensures |Visit(web, url, {}).fetched| <= |web|
  {
    var s := Visit(web, url, {});
    DistinctCard(s.fetched);
    SubsetCard(Elems(s.fetched), web.Keys);
  }

  /** `Expand` on a fetchable page, spelled out: claim its links, walk them, combine. */
  lemma ExpandUnfold(web: Web, url: string, visited: set<string>)
    requires url in visited && url in web
    ensures var (ts, claimed) := Claim(url, web[url].refs, visited);
            && FreshUrls(ts) <= claimed && FreshDistinct(ts)
            && (FreshInWeb(ts, web) ==> Unvisited(web, claimed) + 1 < Unvisited(web, visited) + 1)
            && var kids := ExpandAll(web, ts, claimed, Unvisited(web, visited) + 1);
               Expand(web, url, visited)
               == if kids.value.None? then Step(None, kids.visited, [url] + kids.fetched)
                  else Step(Some(Combine(web[url].content, Labels(ts, kids.value.value))), kids.visited, [url] + kids.fetched)
  {
    var (ts, claimed) := Claim(url, web[url].refs, visited);
    ClaimFacts(url, web[url].refs, visited);
    ClaimShrinks(web, ts, visited, claimed);
  }

  /** `ExpandAll` on a non-empty list, spelled out: walk the first target, then the rest. */
  lemma ExpandAllCons(web: Web, ts: seq<Target>, visited: set<string>, bound: nat)
    requires ts != [] && FreshUrls(ts) <= visited && FreshDistinct(ts) && bound >= 1
    requires FreshInWeb(ts, web) ==> Unvisited(web, visited) + 1 < bound
    ensures var head := if ts[0].fetches then Expand(web, ts[0].url, visited) else Step(Some(""), visited, []);
            && (head.value.Some? ==>
                  && FreshUrls(ts[1..]) <= head.visited && FreshDistinct(ts[1..])
                  && (FreshInWeb(ts[1..], web) ==> Unvisited(web, head.visited) + 1 < bound))
            && ExpandAll(web, ts, visited, bound)
               == if head.value.None? then Step(None, head.visited, head.fetched)
                  else
                    var tail := ExpandAll(web, ts[1..], head.visited, bound);
                    if tail.value.None? then Step(None, tail.visited, head.fetched + tail.fetched)
                    else Step(Some([head.value.value] + tail.value.value), tail.visited, head.fetched + tail.fetched)
  {
    FreshUrlsHead(ts);
    var head := if ts[0].fetches then Expand(web, ts[0].url, visited) else Step(Some(""), visited, []);
    DiffMonotone(web.Keys, visited, head.visited);
    FreshInWebTail(ts, web);
  }

  /** `n` empty results. */
  function Blanks(n: nat): seq<string> {
    if n == 0 then [] else [""] + Blanks(n - 1)
  }

  /** Walking targets that are all already visited fetches nothing and yields `""` for each. */
  lemma {:induction false} ExpandAllSeen(web: Web, ts: seq<Target>, visited: set<string>, bound: nat)
    requires bound >= 1 && forall i :: 0 <= i < |ts| ==> !ts[i].fetches
    ensures FreshUrls(ts) == {} && FreshDistinct(ts) && !FreshInWeb(ts, web)
    ensures ExpandAll(web, ts, visited, bound) == Step(Some(Blanks(|ts|)), visited, [])
    decreases |ts|
  {
    if ts != [] {
      ExpandAllSeen(web, ts[1..], visited, bound);
      ExpandAllCons(web, ts, visited, bound);
      assert ts[0].fetches == false;
    }
  }

  lemma LabelsOne(t: Target, result: string)
    ensures Labels([t], [result]) == [t.path + "_" + result]
  {
  }

  /** Walking `url` from exactly the visited set `seen` yields `result`. */
  predicate WalksTo(web: Web, url: string, seen: set<string>, result: string) {
    url in seen && Expand(web, url, seen).value == Some(result)
  }

  /** Whatever may walk a list of claimed siblings may walk any prefix of it. */
  lemma PrefixWalkable(web: Web, ts: seq<Target>, visited: set<string>, bound: nat, i: nat)
    requires FreshUrls(ts) <= visited && FreshDistinct(ts) && bound >= 1
    requires FreshInWeb(ts, web) ==> Unvisited(web, visited) + 1 < bound
    requires i <= |ts|
    ensures FreshUrls(ts[..i]) <= visited && FreshDistinct(ts[..i])
    ensures FreshInWeb(ts[..i], web) ==> Unvisited(web, visited) + 1 < bound
  {
    var p := ts[..i];
    forall x | x in FreshUrls(p) ensures x in FreshUrls(ts) {
      FreshUrlsMember(p, x);
      FreshUrlsMember(ts, x);
      var k :| 0 <= k < |p| && p[k].fetches && p[k].url == x;
      assert ts[k] == p[k];
    }
    if FreshInWeb(p, web) {
      var k :| 0 <= k < |p| && p[k].fetches && p[k].url in web;
      assert ts[k] == p[k];
    }
  }

  /** The visited set after walking the first `i` claimed siblings: the set the `i`-th
      sibling is walked from. The first sees the set as claiming left it. */
  function SeenBefore(web: Web, ts: seq<Target>, visited: set<string>, bound: nat, i: nat): (r: set<string>)
    requires FreshUrls(ts) <= visited && FreshDistinct(ts) && bound >= 1
    requires FreshInWeb(ts, web) ==> Unvisited(web, visited) + 1 < bound
    requires i <= |ts|
    ensures visited <= r
    ensures i == 0 ==> r == visited
  {
    PrefixWalkable(web, ts, visited, bound, i);
    assert i == 0 ==> ts[..i] == [];
    ExpandAll(web, ts[..i], visited, bound).visited
  }

  /** After a successful first walk, the later siblings see what they would see when the
      rest of the list is walked from where the first walk left the visited set. */
  lemma SeenBeforeShift(web: Web, ts: seq<Target>, visited: set<string>, bound: nat, i: nat)
    requires ts != [] && FreshUrls(ts) <= visited && FreshDistinct(ts) && bound >= 1
    requires FreshInWeb(ts, web) ==> Unvisited(web, visited) + 1 < bound
    requires 1 <= i <= |ts|
    requires (if ts[0].fetches then Expand(web, ts[0].url, visited) else Step(Some(""), visited, [])).value.Some?
    ensures var head := if ts[0].fetches then Expand(web, ts[0].url, visited) else Step(Some(""), visited, []);
            && FreshUrls(ts[1..]) <= head.visited && FreshDistinct(ts[1..])
            && (FreshInWeb(ts[1..], web) ==> Unvisited(web, head.visited) + 1 < bound)
            && SeenBefore(web, ts, visited, bound, i) == SeenBefore(web, ts[1..], head.visited, bound, i - 1)
  {
    ExpandAllCons(web, ts, visited, bound);
    var p := ts[..i];
    PrefixWalkable(web, ts, visited, bound, i);
    assert p[0] == ts[0];
    assert p[1..] == ts[1..][..i - 1];
    ExpandAllCons(web, p, visited, bound);
  }

  /** In a successful walk of claimed siblings, every fetched sibling's result is the walk
      of its own URL from exactly the visited set the earlier siblings' walks left behind. */
  lemma {:induction false} ExpandAllChildren(web: Web, ts: seq<Target>, visited: set<string>, bound: nat)
    requires FreshUrls(ts) <= visited && FreshDistinct(ts) && bound >= 1
    requires FreshInWeb(ts, web) ==> Unvisited(web, visited) + 1 < bound
    requires ExpandAll(web, ts, visited, bound).value.Some?
    ensures forall i :: 0 <= i < |ts| && ts[i].fetches
              ==> WalksTo(web, ts[i].url, SeenBefore(web, ts, visited, bound, i), ExpandAll(web, ts, visited, bound).value.value[i])
    decreases |ts|
  {
    if ts != [] {
      ExpandAllHead(web, ts, visited, bound);
      ExpandAllCons(web, ts, visited, bound);
      var head := if ts[0].fetches then Expand(web, ts[0].url, visited) else Step(Some(""), visited, []);
      var rs := ExpandAll(web, ts, visited, bound).value.value;
      ExpandAllChildren(web, ts[1..], head.visited, bound);
      var tail := ExpandAll(web, ts[1..], head.visited, bound).value.value;
      assert rs == [head.value.value] + tail;
      assert rs[1..] == tail;
      forall i | 0 <= i < |ts| && ts[i].fetches
        ensures WalksTo(web, ts[i].url, SeenBefore(web, ts, visited, bound, i), rs[i])
      {
        if i == 0 {
          assert WalksTo(web, ts[0].url, visited, rs[0]);
        } else {
          SeenBeforeShift(web, ts, visited, bound, i);
          assert ts[1..][i - 1] == ts[i];
          assert rs[1..][i - 1] == rs[i];
        }
      }
    }
  }

  /** The visited set the `i`-th link of the page at `url` is walked from: the page's links
      all claimed, and the first `i` of them walked. */
  function LinkSeen(web: Web, url: string, visited: set<string>, i: nat): (r: set<string>)
    requires url in visited && url in web && i <= |web[url].refs|
    ensures Claim(url, web[url].refs, visited).1 <= r
    ensures i == 0 ==> r == Claim(url, web[url].refs, visited).1
  {
    var (ts, claimed) := Claim(url, web[url].refs, visited);
    ClaimFacts(url, web[url].refs, visited);
    ClaimShrinks(web, ts, visited, claimed);
    SeenBefore(web, ts, claimed, Unvisited(web, visited) + 1, i)
  }

  /** The combination string of a fetched page: its content, `_`, and the labels
      `path_i + "_" + result_i` of its links joined by `_` in document order, where every
      link claimed by an earlier sibling or visited before contributes the empty result. */
  lemma CombinationShape(web: Web, url: string, visited: set<string>) returns (results: seq<string>)
    requires url !in visited && url in web
    requires Visit(web, url, visited).value.Some?
    ensures var targets := Claim(url, web[url].refs, visited + {url}).0;
            && |results| == |targets|
            && (forall i :: 0 <= i < |targets| && !targets[i].fetches ==> results[i] == "")
            && (forall i :: 0 <= i < |targets| && targets[i].fetches
                  ==> WalksTo(web, targets[i].url, LinkSeen(web, url, visited + {url}, i), results[i]))
            && Visit(web, url, visited).value.value == Combine(web[url].content, Labels(targets, results))
  {
    var v := visited + {url};
    var (targets, claimed) := Claim(url, web[url].refs, v);
    var bound := Unvisited(web, v) + 1;
    ExpandUnfold(web, url, v);
    assert Visit(web, url, visited) == Expand(web, url, v);
    results := WalkResults(web, targets, claimed, bound);
  }

  /** The results of a successful walk of siblings, with what each one is. */
  lemma WalkResults(web: Web, ts: seq<Target>, visited: set<string>, bound: nat) returns (results: seq<string>)
    requires FreshUrls(ts) <= visited && FreshDistinct(ts) && bound >= 1
    requires FreshInWeb(ts, web) ==> Unvisited(web, visited) + 1 < bound
    requires ExpandAll(web, ts, visited, bound).value.Some?
    ensures results == ExpandAll(web, ts, visited, bound).value.value && |results| == |ts|
    ensures forall i :: 0 <= i < |ts| && !ts[i].fetches ==> results[i] == ""
    ensures forall i :: 0 <= i < |ts| && ts[i].fetches ==> WalksTo(web, ts[i].url, SeenBefore(web, ts, visited, bound, i), results[i])
  {
    results := ExpandAll(web, ts, visited, bound).value.value;
    ExpandAllChildren(web, ts, visited, bound);
  }

  /** A single absolute link is claimed as its `href`. */
  lemma ClaimOneAbsolute(base: string, r: Ref, visited: set<string>)
    requires HasHost(r)
    ensures Claim(base, [r], visited) == ([Target(r.path, r.href, r.href !in visited)], visited + {r.href})
  {
    var t := Target(r.path, r.href, r.href !in visited);
    assert [r][1..] == [];
    assert Resolve(base, r) == (r.href, base);
    assert Claim(base, [], visited + {r.href}) == ([], visited + {r.href});
    assert [t] + [] == [t];
  }

  /** Walking a single target that is fetched is walking that target. */
  lemma ExpandAllOne(web: Web, t: Target, visited: set<string>, bound: nat)
    requires t.fetches && t.url in visited && bound >= 1
    requires t.url in web ==> Unvisited(web, visited) + 1 < bound
    ensures FreshUrls([t]) <= visited && FreshDistinct([t]) && (FreshInWeb([t], web) ==> Unvisited(web, visited) + 1 < bound)
    ensures var h := Expand(web, t.url, visited);
            ExpandAll(web, [t], visited, bound)
            == if h.value.None? then Step(None, h.visited, h.fetched) else Step(Some([h.value.value]), h.visited, h.fetched)
  {
    assert [t][1..] == [];
    assert FreshUrls([t]) == {t.url};
    var h := Expand(web, t.url, visited);
    ExpandAllCons(web, [t], visited, bound);
    if h.value.Some? {
      assert ExpandAll(web, [], h.visited, bound) == Step(Some([]), h.visited, []);
      assert h.fetched + [] == h.fetched;
      assert [h.value.value] + [] == [h.value.value];
    }
  }

  /** The combination string of a page with a single link. */
  lemma CombineOne(content: string, t: Target, result: string)
    ensures Combine(content, Labels([t], [result])) == content + "_" + t.path + "_" + result
  {
    LabelsOne(t, result);
    var entry := t.path + "_" + result;
    assert Join("_", [entry]) == entry;
  }

  /** A page whose only link points back to an already-visited URL contributes its
      content and that link's path label, and fetches nothing more. */
  lemma LinkBack(web: Web, url: string, visited: set<string>, target: string, host: string, path: string)
    requires url in visited && target in visited && host != ""
    requires url in web && web[url].refs == [Ref(Some(host), target, path)]
    ensures Expand(web, url, visited) == Step(Some(web[url].content + "_" + path + "_"), visited, [url])
  {
    var r := web[url].refs[0];
    ClaimOneAbsolute(url, r, visited);
    var t := Target(path, target, false);
    assert visited + {target} == visited;
    assert Claim(url, web[url].refs, visited) == ([t], visited);
    ExpandUnfold(web, url, visited);
    var bound := Unvisited(web, visited) + 1;
    ExpandAllSeen(web, [t], visited, bound);
    assert Blanks(1) == [""];
    assert ExpandAll(web, [t], visited, bound) == Step(Some([""]), visited, []);
    CombineOne(web[url].content, t, "");
    var c := Combine(web[url].content, Labels([t], [""]));
    assert c == web[url].content + "_" + path + "_";
    assert [url] + [] == [url];
    assert Expand(web, url, visited) == Step(Some(c), visited, [url]);
  }

  /** A page linking to itself: the walk stops at the repeated URL, which contributes
      only its path label. */
  lemma SelfLoop(web: Web, url: string, host: string, path: string)
    requires host != "" && url in web && web[url].refs == [Ref(Some(host), url, path)]
    ensures FetchAndHashContent(web, url) == Some(web[url].content + "_" + path + "_")
  {
    LinkBack(web, url, {url}, url, host, path);
  }

  /** A page whose only link points to a URL not visited yet: the linked page is walked
      next, and its combination string follows the link's path label. */
  lemma LinkForward(web: Web, url: string, visited: set<string>, target: string, host: string, path: string,
                    claimed: set<string>, inner: string, seen: set<string>, fetched: seq<string>)
    requires url in visited && target !in visited && host != "" && claimed == visited + {target}
    requires url in web && web[url].refs == [Ref(Some(host), target, path)]
    requires Expand(web, target, claimed) == Step(Some(inner), seen, fetched)
    ensures Expand(web, url, visited) == Step(Some(web[url].content + "_" + path + "_" + inner), seen, [url] + fetched)
  {
    var r := web[url].refs[0];
    ClaimOneAbsolute(url, r, visited);
    var t := Target(path, target, true);
    assert Claim(url, web[url].refs, visited) == ([t], claimed);
    ExpandUnfold(web, url, visited);
    var bound := Unvisited(web, visited) + 1;
    if target in web {
      DiffShrinks(web.Keys, visited, claimed, target);
    }
    ExpandAllOne(web, t, claimed, bound);
    assert ExpandAll(web, [t], claimed, bound) == Step(Some([inner]), seen, fetched);
    CombineOne(web[url].content, t, inner);
    var c := Combine(web[url].content, Labels([t], [inner]));
    assert c == web[url].content + "_" + path + "_" + inner;
  }

  /** The walk below the first page of a two-page cycle, entered with `a` visited and `b` not. */
  lemma TwoCycleFrom(web: Web, a: string, b: string, hostA: string, hostB: string, pathA: string, pathB: string,
                     visited: set<string>, both: set<string>)
    requires hostA != "" && hostB != ""
    requires a in web && web[a].refs == [Ref(Some(hostB), b, pathB)]
    requires b in web && web[b].refs == [Ref(Some(hostA), a, pathA)]
    requires a in visited && b !in visited && both == visited + {b}
    ensures Expand(web, a, visited)
         == Step(Some(web[a].content + "_" + pathB + "_" + (web[b].content + "_" + pathA + "_")), both, [a] + [b])
  {
    var back := web[b].content + "_" + pathA + "_";
    LinkBack(web, b, both, a, hostA, pathA);
    LinkForward(web, a, visited, b, hostB, pathB, both, back, both, [b]);
  }

  /** Visiting the first page of a two-page cycle when neither page was visited yet. */
  lemma TwoCycleVisit(web: Web, a: string, b: string, hostA: string, hostB: string, pathA: string, pathB: string,
                      visited: set<string>)
    requires a != b && hostA != "" && hostB != ""
    requires a in web && web[a].refs == [Ref(Some(hostB), b, pathB)]
    requires b in web && web[b].refs == [Ref(Some(hostA), a, pathA)]
    requires a !in visited && b !in visited
    ensures Visit(web, a, visited)
         == Step(Some(web[a].content + "_" + pathB + "_" + (web[b].content + "_" + pathA + "_")),
                 visited + {a} + {b}, [a] + [b])
  {
    TwoCycleFrom(web, a, b, hostA, hostB, pathA, pathB, visited + {a}, visited + {a} + {b});
  }

  /** Two pages linking to each other: the walk fetches each once and terminates. */
  lemma TwoCycle(web: Web, a: string, b: string, hostA: string, hostB: string, pathA: string, pathB: string)
    requires a != b && hostA != "" && hostB != ""
    requires a in web && web[a].refs == [Ref(Some(hostB), b, pathB)]
    requires b in web && web[b].refs == [Ref(Some(hostA), a, pathA)]
    ensures FetchAndHashContent(web, a)
         == Some(web[a].content + "_" + pathB + "_" + (web[b].content + "_" + pathA + "_"))
    ensures Visit(web, a, {}).fetched == [a, b]
  {
    TwoCycleVisit(web, a, b, hostA, hostB, pathA, pathB, {});
    assert [a] + [b] == [a, b];
  }
}

=== FILE: url.dfy ===
/** URL normalisation: `addProtocolToUrl` and `parseUrlWithoutHashAndQuery` (routes/hash.js).

    The source hands the defaulted string to the WHATWG `URL` parser, clears `hash` and
    `search`, and re-serialises. The parser is modelled by the part of WHATWG parsing that this
    code depends on for `http`/`https` URLs: the authority runs up to the first `/`, `?` or `#`,
    the query starts at the first `?` before the fragment, the fragment at the first `#`,
    an empty path serialises as `/`, and an empty host is an error. */
module Url {
  import opened Wrappers
  import opened Strings

  /** A parsed URL; `None` for query or fragment is WHATWG's null (no `?`/`#` in the text). */
  datatype Url = Url(scheme: string, host: string, path: string, query: Option<string>, fragment: Option<string>)

  predicate HasScheme(s: string) {
    StartsWith(s, "http://") || StartsWith(s, "https://")
  }

  /** The shape every parsed URL has, and that serialisation then parsing preserves. */
  predicate WellFormed(u: Url) {
    && (u.scheme == "http" || u.scheme == "https")
    && u.host != [] && '/' !in u.host && '?' !in u.host && '#' !in u.host
    && |u.path| >= 1 && u.path[0] == '/' && '?' !in u.path && '#' !in u.path
    && (u.query.Some? ==> '#' !in u.query.value)
  }

  /** `addProtocolToUrl`: default the scheme to `https://`. */
  function AddProtocol(s: string): (r: string)
    ensures HasScheme(r)
    ensures HasScheme(s) ==> r == s
    ensures !HasScheme(s) ==> r == "https://" + s
  {
    if !StartsWith(s, "http://") && !StartsWith(s, "https://") then "https://" + s else s
  }

  /** Defaulting the scheme twice is the same as defaulting it once. */
  lemma AddProtocolIdempotent(s: string)
    ensures AddProtocol(AddProtocol(s)) == AddProtocol(s)
  {
  }

  function OptionalPart(mark: char, part: Option<string>): string {
    match part
    case None => ""
    case Some(p) => [mark] + p
  }

  /** `URL.prototype.toString`. A well-formed URL serialises behind its scheme prefix, and
      one without query or fragment serialises to text holding neither `?` nor `#`. */
  function Serialize(u: Url): (r: string)
    ensures WellFormed(u) ==> HasScheme(r) && StartsWith(r, u.scheme + "://")
    ensures WellFormed(u) && u.query.None? && u.fragment.None? ==> '?' !in r && '#' !in r
  {
    var rest := u.host + u.path + OptionalPart('?', u.query) + OptionalPart('#', u.fragment);
    if WellFormed(u) then
      SchemePrefix(u.scheme, rest);
      SchemeMarks(u.scheme, rest);
      u.scheme + "://" + rest
    else u.scheme + "://" + rest
  }

  /** Neither a supported scheme nor `://` holds a `?` or `#`. */
  lemma SchemeMarks(scheme: string, rest: string)
    requires scheme == "http" || scheme == "https"
    ensures '?' !in rest && '#' !in rest ==> '?' !in scheme + "://" + rest && '#' !in scheme + "://" + rest
  {
    assert '?' !in scheme + "://" && '#' !in scheme + "://";
  }

  /** The scheme named by the text's prefix, if it is `http://` or `https://`. */
  function SchemeOf(s: string): (r: Option<string>)
    ensures r.Some? <==> HasScheme(s)
    ensures r.Some? ==> (r.value == "http" || r.value == "https") && StartsWith(s, r.value + "://")
  {
    if StartsWith(s, "https://") then Some("https")
    else if StartsWith(s, "http://") then Some("http")
    else None
  }

  /** Everything after `scheme://`: the host, path, query and fragment. */
  function ParseAuthority(scheme: string, rest: string): (r: Option<Url>)
    requires scheme == "http" || scheme == "https"
    ensures r.Some? ==> WellFormed(r.value) && r.value.scheme == scheme
  {
    var (beforeHash, fragment) := Split(rest, '#');
    var (beforeQuery, query) := Split(beforeHash, '?');
    var (host, pathTail) := Split(beforeQuery, '/');
    if host == [] then None
    else Some(Url(scheme, host, if pathTail.None? then "/" else "/" + pathTail.value, query, fragment))
  }

  /** `new URL(s)` over the simplified grammar above: `None` for text without an `http://`
      or `https://` prefix or with an empty host. */
  function Parse(s: string): (r: Option<Url>)
    ensures r.Some? ==> WellFormed(r.value)
    ensures r.Some? ==> HasScheme(s)
  {
    match SchemeOf(s)
    case None => None
    case Some(scheme) => ParseAuthority(scheme, s[|scheme| + 3..])
  }

  /** Setting `hash` and `search` to the empty string. */
  function StripHashAndQuery(u: Url): (r: Url)
    ensures r.query.None? && r.fragment.None?
    ensures r.scheme == u.scheme && r.host == u.host && r.path == u.path
  {
    u.(query := None, fragment := None)
  }

  /** `parseUrlWithoutHashAndQuery`; `None` where the simplified parser rejects the text. */
  function Normalize(s: string): (r: Option<string>)
    ensures r.Some? ==> HasScheme(r.value) && '?' !in r.value && '#' !in r.value
    ensures r.None? <==> Parse(AddProtocol(s)).None?
  {
    match Parse(AddProtocol(s))
    case None => None
    case Some(u) =>
      Some(Serialize(StripHashAndQuery(u)))
  }

  /** Splitting off an optional `mark`-introduced part recovers that part. */
  lemma SplitOptionalPart(a: string, mark: char, part: Option<string>)
    requires mark !in a
    ensures Split(a + OptionalPart(mark, part), mark) == (a, part)
  {
    match part {
      case None =>
        assert a + OptionalPart(mark, part) == a;
        SplitAbsent(a, mark);
      case Some(p) =>
        assert a + OptionalPart(mark, part) == a + [mark] + p;
        SplitFirst(a, mark, p);
    }
  }

  /** The authority, path, query and fragment of a well-formed URL split back apart. */
  lemma ParseAuthorityInverse(u: Url)
    requires WellFormed(u)
    ensures ParseAuthority(u.scheme, u.host + u.path + OptionalPart('?', u.query) + OptionalPart('#', u.fragment)) == Some(u)
  {
    var beforeQuery := u.host + u.path;
    var beforeHash := beforeQuery + OptionalPart('?', u.query);
    var rest := beforeHash + OptionalPart('#', u.fragment);
    assert Split(rest, '#') == (beforeHash, u.fragment) by {
      assert '#' !in beforeQuery;
      assert '#' !in OptionalPart('?', u.query);
      SplitOptionalPart(beforeHash, '#', u.fragment);
    }
    assert Split(beforeHash, '?') == (beforeQuery, u.query) by {
      SplitOptionalPart(beforeQuery, '?', u.query);
    }
    assert Split(beforeQuery, '/') == (u.host, Some(u.path[1..])) by {
      assert beforeQuery == u.host + ['/'] + u.path[1..];
      SplitFirst(u.host, '/', u.path[1..]);
    }
    assert "/" + u.path[1..] == u.path;
  }

  /** The scheme prefix of a serialised URL is read back, and what follows it is the rest. */
  lemma SchemePrefix(scheme: string, rest: string)
    requires scheme == "http" || scheme == "https"
    ensures SchemeOf(scheme + "://" + rest) == Some(scheme)
    ensures (scheme + "://" + rest)[|scheme| + 3..] == rest
    ensures StartsWith(scheme + "://" + rest, scheme + "://")
  {
    var s := scheme + "://" + rest;
    assert s[..|scheme| + 3] == scheme + "://";
    if scheme == "http" {
      assert s[4] == ':';
    }
  }

  /** Parsing a serialised well-formed URL gives it back. */
  lemma ParseSerialize(u: Url)
    requires WellFormed(u)
    ensures Parse(Serialize(u)) == Some(u)
  {
    var rest := u.host + u.path + OptionalPart('?', u.query) + OptionalPart('#', u.fragment);
    assert Serialize(u) == u.scheme + "://" + rest;
    SchemePrefix(u.scheme, rest);
    ParseAuthorityInverse(u);
  }

  /** `https://` followed by a delimiter-free host and a `/`-rooted path without `?` or `#`
      parses into exactly that host and path. */
  lemma ParseHttps(host: string, path: string)
    requires host != [] && '/' !in host && '?' !in host && '#' !in host
    requires |path| >= 1 && path[0] == '/' && '?' !in path && '#' !in path
    ensures Parse("https://" + host + path) == Some(Url("https", host, path, None, None))
    ensures Serialize(Url("https", host, path, None, None)) == "https://" + host + path
  {
    var u := Url("https", host, path, None, None);
    assert Serialize(u) == "https://" + host + path;
    ParseSerialize(u);
  }

  /** Such text is already normalised. */
  lemma NormalizeHttps(host: string, path: string)
    requires host != [] && '/' !in host && '?' !in host && '#' !in host
    requires |path| >= 1 && path[0] == '/' && '?' !in path && '#' !in path
    ensures Normalize("https://" + host + path) == Some("https://" + host + path)
  {
    var s := "https://" + host + path;
    var u := Url("https", host, path, None, None);
    ParseHttps(host, path);
    assert AddProtocol(s) == s by {
      assert s[..8] == "https://";
    }
    assert StripHashAndQuery(u) == u;
  }

  /** Normalising a serialised URL only drops its query and fragment. */
  lemma NormalizeClears(u: Url)
    requires WellFormed(u)
    ensures Normalize(Serialize(u)) == Some(Serialize(StripHashAndQuery(u)))
  {
    ParseSerialize(u);
    assert StartsWith(Serialize(u), u.scheme + "://");
  }

  /** `parseUrlWithoutHashAndQuery` is idempotent. */
  lemma NormalizeIdempotent(s: string)
    requires Normalize(s).Some?
    ensures Normalize(Normalize(s).value) == Normalize(s)
  {
    var u := Parse(AddProtocol(s)).value;
    var v := StripHashAndQuery(u);
    assert WellFormed(v);
    NormalizeClears(v);
    assert StripHashAndQuery(v) == v;
  }
}

=== FILE: wrappers.dfy ===
/** Failure-carrying wrappers used throughout the model. */
module Wrappers {

  /** A value that may be absent: JavaScript's `null`/`undefined` or a failed lookup. */
  datatype Option<+T> = None | Some(value: T) {
    function GetOr(default: T): T {
      match this
      case Some(v) => v
      case None => default
    }
  }

  /** The outcome of an operation that can throw: a value, or the error it throws. */
  datatype Result<+T, +E> = Ok(value: T) | Err(error: E)
}
